=== FILE: README.md ===
# Veltis: a Dafny model of the request handlers and client workflows

Veltis timestamps intellectual-property assets. A signed-in user uploads a
file. The server hashes the file (SHA-256), pins the file and an NFT metadata
JSON to IPFS, and returns an `ipfs://` token URI. The user mints an ERC-721
token with that URI from their own wallet. The client then reports the mint,
and the server records a `files` row and an `ip_records` row and bumps the
user's usage counters. Anyone can later check a file or digest against the
records. The owner can download a PDF certificate for their record.

This project models the decision logic of that flow as pure functions over
immutable data. Each function takes a request, an abstract store and the
outcomes of the outside services, and returns a reply and the new store.
The store has a `files` sequence, an `ip_records` sequence and a `profiles`
map. The outside services are Supabase, Pinata, the wallet, axios and the
contract.

- `Wrappers`, `Text`: `Option`/`Result`. JavaScript string semantics the
  code relies on:
  - truthiness;
  - `split`, `trim`, `substring` and `replace` (first occurrence);
  - `toString(radix)`.
- `Store`: the tables and their rows, the digest type, and PostgREST's
  `.single()`. SHA-256 is an uninterpreted function parameter.
- `FileController`: `handleFileUpload` (quota gate, hashing, both pins,
  metadata and token URI) and `handleMintConfirmation` (validation, two
  ordered inserts, the best-effort usage RPC).
- `VerificationController`: `verifyAsset`, covering:
  - hex validation and `0x` stripping;
  - the join of `files` with `ip_records`;
  - the two kinds of 404.
- `RecordController`: `getCertificate`, covering the ownership-filtered
  lookup, essential-field validation and the download headers.
- `AuthMiddleware`: `authenticateToken`, which extracts the bearer token.
  The token check is an oracle.
- `RouteMiddleware`: the Next.js redirect rules and their matcher.
- `Dashboard`:
  - the certificate download, including the `Content-Disposition` file-name
    regular expression `/filename="?(.+)"?/i` modelled exactly (leftmost
    match, greedy group);
  - normalisation of the `files` relation.
- `Wallet`: the network check, the switch-then-add fallback
  (`wallet_switchEthereumChain`, then `wallet_addEthereumChain`),
  connecting, `accountsChanged`, the chain-id parameter and the address
  abbreviation.
- `UploadClient`: the upload/mint status machine, the limit predicates,
  the submit workflow, token-id extraction from the receipt and error
  display.
- `VerifyClient`: the verify tool's status machine, mutual exclusion of
  its inputs, and the explorer and IPFS links.
- `IpNft`: the ERC-721 registry (EIP-721) as the contract tests assert it:
  - sequential ids from 0;
  - URI storage;
  - owner-only burn;
  - EIP-165 answers.
- `Workflow`: properties across components:
  - the client's limits agree with the server's gate;
  - what upload prepares is what confirm receives;
  - the client recognises the contract's mint event;
  - a confirmed mint is verifiable;
  - an orphan row answers the "no timestamp" 404;
  - the saved certificate name.

## Model

| member | source | states |
|---|---|---|
| FileController.CheckUsage | server/src/controllers/fileController.ts:88-102 | The record limit is rejected iff the count is at least 5. Storage is rejected iff the count is under 5 and the used plus incoming bytes exceed 100 MiB. |
| FileController.StorageLimitIsInclusive | server/src/controllers/fileController.ts:96-102 | A total of exactly 104857600 bytes is still accepted. |
| FileController.BuildMetadata | server/src/controllers/fileController.ts:153-171 | The metadata name is the original file name and the image is `ipfs://` plus the file CID. `properties` carry the digest and the byte size. |
| FileController.IpfsUri | server/src/controllers/fileController.ts:186 | The URI starts with `ipfs://` and the rest is exactly the CID. |
| FileController.HandleFileUpload | server/src/controllers/fileController.ts:29-202 | No file gives 400 and no user gives 401, both before any outside call. The profile read precedes every hash and pin, and hashing and pinning need a profile within limits. A missing client gives 500 with no outside call, and a failed read or a missing profile row gives 500. A 403 performs only the profile read. Within limits, the reply is 200 iff both pins return a CID. The metadata is pinned only after the file pin returned a CID. The 200 body has token URI `ipfs://<metadata CID>`, the digest of the buffer, the file CID and the original name. The pinned JSON is the metadata built from these. |
| FileController.QuotaRejectionPrecedesHashing | server/src/controllers/fileController.ts:88-94 | At 5 or more records the reply is the record-limit 403, even when storage is also over. Nothing is hashed. |
| FileController.StorageRejectionIff | server/src/controllers/fileController.ts:96-102 | Under the record limit, the storage 403 is given iff the total would exceed 100 MiB. |
| FileController.FilePinFailureSkipsMetadata | server/src/controllers/fileController.ts:140-146 | A null file CID gives 500, and the metadata is never pinned. |
| FileController.IncrementUsage | server/src/controllers/fileController.ts:319-323 | The RPC adds one record and the file size to the user's profile. Every other profile is unchanged. |
| FileController.HandleMintConfirmation | server/src/controllers/fileController.ts:219-348 | Tables only grow, by at most one row each. An ip_record is written only next to the new file row it references. No user gives 401 and any falsy field gives 400, a size of 0 included, and a missing client gives 500; none of these writes anything. 200 holds exactly when both inserts return ids, whatever the usage RPC does; its body carries both ids, the token id and the transaction hash. A failed usage RPC still yields 200 and leaves the profiles unchanged. |
| FileController.FileInsertFailureWritesNothing | server/src/controllers/fileController.ts:259-276 | A failed `files` insert gives 500 and leaves the store as it was. |
| FileController.IpInsertFailureLeavesOrphan | server/src/controllers/fileController.ts:290-310 | A failed `ip_records` insert gives 500 and leaves the new `files` row in place; there is no compensating delete. |
| FileController.UsageFailureStillConfirms | server/src/controllers/fileController.ts:318-341 | A failed usage RPC still gives 200 with unchanged profiles. The new ip_record has status `minted`. |
| VerificationController.StripHexPrefix | server/src/controllers/verificationController.ts:25 | One leading `0x` is removed when present, and nothing else changes. |
| VerificationController.FilesWithHash | server/src/controllers/verificationController.ts:47-50 | Exactly the file rows whose digest equals the key, compared case-sensitively. |
| VerificationController.FilesWithHashAppend | server/src/controllers/verificationController.ts:47-50 | The matching rows keep table order and appear once each: a row appended to `files` adds itself at the end iff it matches. |
| VerificationController.EntriesFor | server/src/controllers/verificationController.ts:70-95 | Every entry comes from an ip_record that references the file, and every such record gives an entry. It is empty when no record references the file. |
| VerificationController.EntriesForAppend | server/src/controllers/verificationController.ts:70-95 | One entry per referencing ip_record, in table order: an appended record adds its entry at the end iff it references the file. |
| VerificationController.CollectEntries | server/src/controllers/verificationController.ts:66-96 | Every entry is a (matching file, referencing record) pair, and every such pair is present. A file whose ip_records query failed is skipped. |
| VerificationController.CollectEntriesAppend | server/src/controllers/verificationController.ts:66-96 | The loop emits file by file, in the order of the matching rows. One more file appends exactly its own entries, or none if its query failed. |
| VerificationController.NoReferenceNoEntries | server/src/controllers/verificationController.ts:66-96 | When no ip_record references a file whose query succeeded, the loop collects nothing. |
| VerificationController.VerifyAsset | server/src/controllers/verificationController.ts:15-108 | With no file, a missing or invalid hash gives 400 before any query. The lookup key is the file's digest, else the stripped hash unchanged. Once the files query succeeds, the results are exactly the join. A missing client, or a failed files query, gives 500 and never a 404. No matching file gives the "Hash not found" 404, and 200 holds iff there are results. The "no timestamp" 404 holds iff files matched but the join was empty. |
| VerificationController.ValidSha256Examples | server/src/controllers/verificationController.ts:6 | The empty string is rejected and every lowercase 64-digit digest is accepted. |
| VerificationController.FileTakesPrecedence | server/src/controllers/verificationController.ts:19-23 | With a file uploaded, the body's `hash` is ignored. |
| VerificationController.HexPrefixIsOptional | server/src/controllers/verificationController.ts:25-27 | A valid digest gets the same answer with or without `0x`. |
| VerificationController.LookupIsCaseSensitive | server/src/controllers/verificationController.ts:25-50 | Every key that passes validation but has an upper-case hex digit finds none of the lower-case rows: 404 "Hash not found". |
| RecordController.OwnedRecords | server/src/controllers/recordController.ts:36-41 | Exactly the rows with both this id and this user; it is empty iff no row matches both. |
| RecordController.OwnedRecordsAppend | server/src/controllers/recordController.ts:36-41 | The matching rows keep table order and appear once each: an appended row adds itself at the end iff it matches both filters, so two matching rows give two results and `.single()` fails. |
| RecordController.OneOwnedRecord | server/src/controllers/recordController.ts:36-41 | When exactly one row matches both filters, the query returns that row alone. |
| RecordController.FilesWithId | server/src/controllers/recordController.ts:65-69 | Exactly the file rows with this id; it is empty iff no row has it. |
| RecordController.FilesWithIdAppend | server/src/controllers/recordController.ts:65-69 | The rows with the id keep table order and appear once each: an appended row adds itself at the end iff it has the id. |
| RecordController.OneFileWithId | server/src/controllers/recordController.ts:65-69 | When exactly one file row has the id, the query returns that row alone. |
| RecordController.GetCertificate | server/src/controllers/recordController.ts:12-126 | 401, then 400, then 500 for a missing client, in that order. With no owned row the reply is 404, whoever else owns the id. A record-query error is 404 only with code PGRST116 and is otherwise 500 "Database error: ...". An owned record without a `file_id` gives 404. A file-query error, or no single file row, gives 500. Missing essential fields give 500, and a renderer failure gives 500. Otherwise the reply is 200 with the certificate. Every 404 carries one of the two "IP Record not found" messages. A certificate is produced iff the status is 200. It is built from the owned record and its file row, has every essential field, and comes with the PDF and `attachment; filename="certificate-<id>.pdf"` headers. No headers are sent on failure. |
| RecordController.OwnedRecordsIgnoreOthers | server/src/controllers/recordController.ts:39-40 | Filtering by id and user equals first dropping every other user's rows. |
| RecordController.OtherUsersRecordsAreInvisible | server/src/controllers/recordController.ts:36-56 | The reply is the same as if other users' rows did not exist. |
| RecordController.ForeignRecordLooksMissing | server/src/controllers/recordController.ts:43-46 | Asking for another user's record gives the same 404 as a missing one. |
| RecordController.EssentialFieldsDecide | server/src/controllers/recordController.ts:113-126 | With both rows found, 200 holds iff the seven essential fields are truthy. Otherwise the reply is the "Incomplete data" 500. |
| RecordController.MissingFileRowIsServerError | server/src/controllers/recordController.ts:65-75 | A record whose file row is gone gives 500 with the PGRST116 message, not 404. |
| RecordController.UniqueRowsCertify | server/src/controllers/recordController.ts:36-104 | When the caller's record and its file are each the only row with their id, the reply is 200 iff the seven essential fields are present. |
| Store.Single | server/src/controllers/recordController.ts:41-51 | `.single()` succeeds iff exactly one row was selected. Otherwise it fails with code PGRST116. |
| AuthMiddleware.BearerToken | server/src/middleware/authMiddleware.ts:35-36 | The token has no space, and a header without a space yields none. |
| AuthMiddleware.AuthenticateToken | server/src/middleware/authMiddleware.ts:24-69 | A missing client gives 500 before the header is read. No token gives 401 "No token provided." with no check. Every non-empty token is checked. When the check finds a user, there is no reply, `req.user` is that user and `next` is called exactly once. A check error gives 401 "Unauthorized: " plus its message, no user gives the invalid-token 401, and a throw gives the 500. `next` is never called with a reply. |
| AuthMiddleware.TokenFollowsScheme | server/src/middleware/authMiddleware.ts:36 | `<scheme> <token>` yields the token, whatever the scheme word. |
| AuthMiddleware.AcceptedTokenPasses | server/src/middleware/authMiddleware.ts:36-65 | A `<scheme> <token>` header whose token the auth service accepts passes once as that user, with no reply. |
| AuthMiddleware.ExtraWordsIgnored | server/src/middleware/authMiddleware.ts:36 | Words after the token are dropped. |
| AuthMiddleware.DoubleSpaceHasNoToken | server/src/middleware/authMiddleware.ts:36-41 | Two spaces after the scheme leave the token empty, giving 401 "No token provided". |
| RouteMiddleware.Middleware | client/middleware.ts:70-94 | Redirects to `/dashboard` iff signed in on `/` or `/login`, and to `/login` iff signed out on a path starting with `/dashboard`. A lookup that returns an error counts as signed out. A lookup that throws passes through. |
| RouteMiddleware.Routed | client/middleware.ts:98-105 | Paths outside the matcher always pass through. |
| RouteMiddleware.NoRedirectLoop | client/middleware.ts:77-84 | Following a redirect with the same session is not redirected again. |
| RouteMiddleware.DashboardNeedsSession | client/middleware.ts:82-105 | A matched dashboard path passes through iff the visitor is not known to be signed out. |
| RouteMiddleware.LookalikePathsAreNotGuarded | client/middleware.ts:82-105 | `/dashboardX` fails the prefix test but is outside the matcher, so it is never redirected. |
| Dashboard.RunLength | client/src/app/dashboard/page.tsx:74 | `.+` takes the longest run up to a line terminator or the end. |
| Dashboard.CaptureAt | client/src/app/dashboard/page.tsx:74 | The pattern fails after `filename=` only at the end or a line terminator. A capture is non-empty and contains no line terminator. |
| Dashboard.MatchFrom | client/src/app/dashboard/page.tsx:74-77 | A reported capture comes from a position where the key occurs. |
| Dashboard.LeftmostMatch | client/src/app/dashboard/page.tsx:74-77 | The leftmost matching position decides the capture. |
| Dashboard.DownloadName | client/src/app/dashboard/page.tsx:71-78 | With no header or no match, the name is `certificate-<id>.pdf`. |
| Dashboard.ServerHeaderKeepsClosingQuote | client/src/app/dashboard/page.tsx:74-77 | On the server's own header the saved name keeps the closing quote: `certificate-<id>.pdf"`. |
| Dashboard.UnquotedNameIsExact | client/src/app/dashboard/page.tsx:74-77 | An unquoted `filename=<name>` is read back exactly. |
| Dashboard.DownloadCertificate | client/src/app/dashboard/page.tsx:44-92 | The marker is set to the record id and always cleared. Either a file is saved or an error is shown, never both. A file is saved iff there is a session and a 200, and then under the name read from `Content-Disposition`. Another 2xx status gives "Failed to download certificate (status: N)". The session error falls back to "User not authenticated." A rejected request shows the error's own message and never the server's, because the body arrives as a Blob. |
| Dashboard.UnexpectedStatusMessage | client/src/app/dashboard/page.tsx:64-66 | The message is the fixed prefix, the status in decimal and `)`; the digits parse back to the status. |
| Dashboard.ServerMessageIsNotShown | client/src/app/dashboard/page.tsx:59-89 | A rejected download shows axios's status message, and rewording the server's reply changes nothing. |
| Dashboard.NormalizeFiles | client/src/app/dashboard/page.tsx:135-138 | An array becomes its first element or null, an object is kept, and an absent relation becomes null. |
| Dashboard.NormalizeFilesIdempotent | client/src/app/dashboard/page.tsx:135-138 | Normalising the normalised form changes nothing. |
| Wallet.ChainIdParam | client/src/components/blockchain/WalletConnector.tsx:75 | `0x` followed by lowercase hexadecimal digits without leading zeros. |
| Wallet.ChainIdParamRoundTrip | client/src/components/blockchain/WalletConnector.tsx:75 | The parameter parses back to the chain id. |
| Wallet.AmoyChainIdParam | client/src/components/blockchain/WalletConnector.tsx:22-23 | Chain 80002 is requested as `0x13882`. |
| Wallet.CheckNetwork | client/src/components/blockchain/WalletConnector.tsx:48-61 | True iff the probe found the required chain. `wrongNetwork` is set to the negation, or left alone when the probe fails. |
| Wallet.SwitchNetwork | client/src/components/blockchain/WalletConnector.tsx:64-107 | Without `request` it returns false and sends nothing. Otherwise it always asks to switch first. The chain is added iff the switch failed with 4902. The result is true iff the switch, or that add, succeeded. |
| Wallet.ConnectWallet | client/src/components/blockchain/WalletConnector.tsx:111-156 | No provider sets its message and requests nothing. Accounts are requested iff the wallet is on the right chain or the switch went through, after the switch requests. A failed switch sets the wrong-network error. When accounts are requested and do not fail, `onConnected` gets the first account and it becomes the address. A failure shows "Failed to connect wallet: ...". |
| Wallet.AccountsChanged | client/src/components/blockchain/WalletConnector.tsx:201-215 | An empty list clears the address and signer and disconnects. A non-empty list reconnects. |
| Wallet.ReportedAccountsAreIgnored | client/src/components/blockchain/WalletConnector.tsx:203-205 | The reconnection does not depend on which accounts the event reported. |
| Wallet.OnRequiredChainConnectsDirectly | client/src/components/blockchain/WalletConnector.tsx:126-147 | On the required chain the only request is for the accounts, and the first account is connected. |
| Wallet.AbbreviateAddress | client/src/components/blockchain/WalletConnector.tsx:261 | The first 6 characters, `...`, then the last 4. |
| Wallet.ShortAddressRepeats | client/src/components/blockchain/WalletConnector.tsx:261 | An address under 4 characters is shown in full on both sides. |
| UploadClient.NoProfileNoLimit | client/src/components/upload/FileUploadComponent.tsx:140-142 | With no profile loaded, no limit is reported. |
| UploadClient.LoadProfile | client/src/components/upload/FileUploadComponent.tsx:96-125 | The load always ends idle and no longer loading, passing through `error` only on a failed read. A failed read keeps its message. |
| UploadClient.SelectFile | client/src/components/upload/FileUploadComponent.tsx:130-137 | Choosing a file resets the status to idle and clears the error and the previous result. |
| UploadClient.FindMintTokenId | client/src/components/upload/FileUploadComponent.tsx:211-224 | The id of the first `Transfer` from the zero address, or none iff no log is such a transfer. |
| UploadClient.DisplayError | client/src/components/upload/FileUploadComponent.tsx:271-285 | The message shown for each kind of thrown error. For an axios error with a body, it is the axios message or the generic text. |
| UploadClient.Run | client/src/components/upload/FileUploadComponent.tsx:159-258 | The requests go in order: upload, then safeMint to the user with the returned token URI, then confirm with the payload built from the receipt's token id. The run reaches `success` iff every outside call goes through. Otherwise it stops at the first failing call (session, prepare, contract address, send, receipt, mint log, confirm) with the statuses set so far and that call's error. |
| UploadClient.Submit | client/src/components/upload/FileUploadComponent.tsx:146-287 | Missing inputs or an exceeded limit give `error` with their message and send nothing. Past the guards, the statuses set are the run's steps, followed by `error` if it stopped. The requests sent, the transaction hash and the confirmation are those of the run, and a thrown error is displayed as the catch block does. Success carries the body the server's confirmation returned. |
| UploadClient.SubmissionSucceedsIff | client/src/components/upload/FileUploadComponent.tsx:146-258 | Within the guards, a submission ends in `success` iff every outside call goes through. It then shows the server's confirmation after exactly the upload, mint and confirm requests. |
| UploadClient.ServerMessageIsNotShown | client/src/components/upload/FileUploadComponent.tsx:275-281 | When the upload endpoint rejects with a JSON body, the axios message is shown instead of the server's. |
| UploadClient.EnabledButtonStartsUpload | client/src/components/upload/FileUploadComponent.tsx:143-159 | With the button enabled, only the usage limit stops a submission; otherwise it starts uploading. |
| VerifyClient.Reset | client/src/components/verification/VerificationTool.tsx:63-67 | Status idle, no error, no results; the inputs are kept. |
| VerifyClient.SelectFile | client/src/components/verification/VerificationTool.tsx:49-55 | Choosing a file clears the hash and resets to idle. |
| VerifyClient.ChangeHash | client/src/components/verification/VerificationTool.tsx:57-61 | Typing a hash clears the file and resets to idle. |
| VerifyClient.SetMode | client/src/components/verification/VerificationTool.tsx:163-169 | The tabs change the mode only. |
| VerifyClient.RequestFor | client/src/components/verification/VerificationTool.tsx:88-98 | File mode sends the file. Hash mode sends the trimmed hash, which is non-empty. |
| VerifyClient.Classify | client/src/components/verification/VerificationTool.tsx:104-128 | `found` iff 200 with results, `not_found` iff an HTTP 404, `error` otherwise. Anything but `found` carries a message. |
| VerifyClient.Submit | client/src/components/verification/VerificationTool.tsx:69-130 | Every submission starts from a reset. No input gives `error` and sends nothing. Otherwise it sends the request for the input and classifies the answer. Results are kept only when found, and the inputs are never changed. |
| VerifyClient.EnabledButtonSends | client/src/components/verification/VerificationTool.tsx:213 | An enabled button always sends a request. |
| VerifyClient.InputsStayExclusive | client/src/components/verification/VerificationTool.tsx:49-61 | No transition leaves both a file and a hash. |
| VerifyClient.HashIsSentTrimmed | client/src/components/verification/VerificationTool.tsx:78-96 | Surrounding whitespace does not change the request. |
| VerifyClient.ExplorerLink | client/src/components/verification/VerificationTool.tsx:139-150 | Null for an empty value, and for a token link when no contract is configured. Otherwise the Amoy explorer URL ending in the value. |
| VerifyClient.IpfsLink | client/src/components/verification/VerificationTool.tsx:151-155 | Null iff the CID is empty. Otherwise the gateway URL, from which the CID is recovered. |
| IpNft.Deploy | contracts/test/VeltisIPNFT.test.ts:27-32 | Name and symbol as given. No token exists, so every query reverts with `ERC721NonexistentToken`. |
| IpNft.OwnerOf | contracts/test/VeltisIPNFT.test.ts:99-101 | Reverts with `ERC721NonexistentToken(id)` iff the token does not exist. An owner is never the zero address. |
| IpNft.TokenUri | contracts/test/VeltisIPNFT.test.ts:70-81 | Defined iff the token exists, and then the stored URI. Otherwise it reverts with `ERC721NonexistentToken(id)`. |
| IpNft.SafeMint | contracts/test/VeltisIPNFT.test.ts:35-66 | The counter's id is returned and the counter advances. The recipient owns the token with the URI, and the event is `Transfer(0, to, id)`. Nothing else changes. |
| IpNft.Burn | contracts/test/VeltisIPNFT.test.ts:90-117 | A nonexistent id reverts with `ERC721NonexistentToken`, and a non-owner reverts with `ERC721InsufficientApproval(caller, id)`. The owner's burn emits `Transfer(owner, 0, id)`, after which the token is gone. Other tokens and the counter are unchanged. |
| IpNft.SupportsInterface | contracts/test/VeltisIPNFT.test.ts:120-145 | True for 0x80ac58cd and 0x5b5e139f, and never for 0xffffffff. |
| IpNft.MintAll | contracts/test/VeltisIPNFT.test.ts:48-66 | A run of mints keeps the registry valid and returns one id per call. |
| IpNft.MintsAreSequential | contracts/test/VeltisIPNFT.test.ts:48-66 | Mints to real addresses get the ids following the counter in order, from any caller. Each recipient owns its token with its URI. |
| IpNft.FirstMintIsZero | contracts/test/VeltisIPNFT.test.ts:35-46 | A fresh contract's first mint is id 0, owned by the recipient, with the URI. |
| IpNft.BurntIdStaysGone | contracts/test/VeltisIPNFT.test.ts:90-102 | After a burn the next mint gets a different id, and the burnt one stays nonexistent. |
| Text.SplitJoin | server/src/middleware/authMiddleware.ts:36 | Splitting the join of space-free words gives the words back. |
| Text.ReplacePrefixRoundTrip | client/src/components/upload/FileUploadComponent.tsx:232 | Removing a prefix from prefix+rest gives rest. |
| Text.TrimEmptyIffBlank | client/src/components/verification/VerificationTool.tsx:78 | `trim()` is empty iff the string is all whitespace. |
| Text.RadixRoundTrip | client/src/components/upload/FileUploadComponent.tsx:224 | A number printed in a radix parses back to itself. |
| Workflow.ClientLimitsMatchServer | client/src/components/upload/FileUploadComponent.tsx:140-142 | The client reports a limit iff the server's gate rejects. The records limit matches the server's record-limit verdict. |
| Workflow.ConfirmationEchoesPreparation | client/src/components/upload/FileUploadComponent.tsx:224-244 | The confirm payload carries back what upload prepared: the metadata CID recovered from the token URI, the digest, the file CID, the name and the size. Its token id parses to the minted id. |
| Workflow.PresenceCheckOnPayload | server/src/controllers/fileController.ts:240-244 | The payload passes the presence check iff the transaction hash, name and type are non-empty and the file is non-empty. |
| Workflow.MintEventCarriesTokenId | client/src/components/upload/FileUploadComponent.tsx:211-224 | The client extracts from the receipt exactly the id the contract assigned. |
| Workflow.BurnEventIsNotAMint | client/src/components/upload/FileUploadComponent.tsx:215 | A burn's `Transfer` is never taken for a mint. |
| Workflow.ConfirmedMintIsVerifiable | server/src/controllers/verificationController.ts:47-108 | After a 200 confirmation, looking up the digest gives 200 with the entry built from the two new rows. |
| Workflow.OrphanRowAnswersNoTimestamp | server/src/controllers/verificationController.ts:98-102 | After a failed ip_records insert, a new digest gives the "no timestamp" 404. |
| Workflow.ClientReadsServerVerdict | client/src/components/verification/VerificationTool.tsx:104-119 | The server's 200 is shown as found, and either 404 as not found. |
| Workflow.HeaderAsRead | server/src/app.ts:12 | A cross-origin page reads a header only if it is safelisted or exposed. `cors()` with no options exposes none. On one origin every header is readable. |
| Workflow.CertificateSavedUnderDefaultName | client/src/app/dashboard/page.tsx:54-73 | As deployed, the API is on another origin and `Content-Disposition` is not exposed. A served certificate is therefore saved as `certificate-<id>.pdf`. |
| Workflow.CertificateSavedWithQuote | client/src/app/dashboard/page.tsx:70-78 | When the page can read the header (one origin, or the header exposed), the served certificate is saved as `certificate-<id>.pdf"`. |
| Workflow.RefusedDownloadHidesReason | client/src/app/dashboard/page.tsx:86-89 | A 404 from the certificate endpoint is shown as axios's status message, never as the reason the endpoint gave. |

## Left out

- SHA-256 (FIPS 180-4) is a function parameter mapping bytes to 64
  lowercase hexadecimal characters. The primitive itself is not modelled.
- Supabase reads, inserts and the `increment_user_usage` RPC are modelled
  by the rows in the store plus oracle outcomes. The RPC's body is not in
  the repository, so `IncrementUsage` assumes it adds one record and the
  size to an existing profile.
- Pinata, the ethers provider and the wallet are oracle outcomes.
  Transaction waits are too, and so is `auth.getSession`/`getUser`.
- Unreachable `!data` branches are not modelled. `.single()` reports
  PGRST116 whenever zero rows (or several) match, so the code never sees
  "no data and no error". These branches are:
  - the 404 "User profile not found." (fileController.ts:82-86);
  - the 404 at recordController.ts:53-56;
  - the "Associated file data not found." 500 at recordController.ts:77-81;
  - the zero-count default profile in the client (FileUploadComponent.tsx:115-117).

  A missing profile row therefore takes the 500 "Could not verify usage
  limits." branch on the server, and the "Could not load your usage data."
  branch on the client.
- `FileController.HandleFileUpload`: the outer `catch` (500 "Error
  processing file upload.") is not modelled. It needs an outside call to
  throw, and the oracles here return values.
- `VerificationController.VerifyAsset`: the outer `catch` (500
  "Verification failed: ...") is not modelled. The same goes for a
  non-string `hash`, which would make `startsWith` throw.
- The PDF renderer and its date formatting are not modelled. Only the
  renderer's failure is an oracle.
- Stripe billing is an external service, and its webhooks only log.
- `formatBytes` is left out because it is floating point.
- The race between the quota check and the usage increment across
  concurrent uploads is not modelled, because the model is sequential.
- Multer's 10 MiB per-request cap is enforced by the library, so file
  sizes are unbounded here.
- The paid-tier branch (`isPaidUser`) is not modelled, because it is
  constantly false in the code.
- `IpNft.Burn` models only the owner as authorised. Approvals and operators
  are not exercised and are not modelled. `IpNft.SafeMint` does not model
  the receiver-contract callback (every recipient is an account). The
  zero-address refusal follows EIP-721. `IpNft.SupportsInterface` answers
  only the EIP-165, ERC-721 and ERC-721 Metadata ids. Any further id the
  contract's libraries may declare is not modelled. The Solidity source is
  not part of this model.
- The browser's CORS handling is modelled only as far as which response
  headers the page may read. Preflight and the request itself are not
  modelled. Header names are compared as written, without case folding.
- `Wallet.ConnectWallet`: the mount-time `checkConnection` and the
  `chainChanged` reload are not modelled. They are effects in the UI.
- JSX rendering, the landing and settings pages, the auth callback, the
  client factories and the routing and configuration files are not
  modelled.

=== FILE: auth_middleware.dfy ===
/**
  The Express middleware in front of every authenticated route: takes the
  second space-separated word of the `Authorization` header as a token, asks
  the auth service who owns it, and either lets the request through with the
  user's id attached or answers it.
 */
module AuthMiddleware {
  import opened Wrappers
  import opened Text
  import opened Store

  /** What `auth.getUser(token)` reports: an error with its message, no
      user, a user with this id, or a thrown exception. */
  datatype TokenCheck = TokenError(message: string) | NoUser | UserFound(id: string) | CheckThrew

  /** `reply` is the answer when the middleware answers; `user` is
      `req.user.id` when it passes the request on; `nextCalls` counts calls
      of `next()`; `checked` is the token handed to the auth service. */
  datatype AuthOutcome = AuthOutcome(reply: Option<Reply>, user: Option<string>, nextCalls: nat, checked: Option<string>)

  /** `authHeader?.split(' ')[1]`, with "" for a missing header or a header
      without a space. */
  function BearerToken(header: Option<string>): (t: string)
    ensures ' ' !in t
    ensures header.None? || ' ' !in header.value ==> t == ""
  {
    if header.None? then ""
    else
      var parts := Split(header.value, ' ');
      if |parts| >= 2 then parts[1]
      else
        assert Join(parts, ' ') == parts[0];
        ""
  }

  function Answer(status: int, message: string, checked: Option<string>): AuthOutcome {
    AuthOutcome(Some(Reply(status, message)), None, 0, checked)
  }

  const InvalidTokenMessage: string := "Unauthorized: Invalid token or user not found."
  const AuthCrashMessage: string := "Internal server error during authentication."

  /** `authenticateToken`. */
  function AuthenticateToken(dbAvailable: bool, header: Option<string>, check: string -> TokenCheck): (r: AuthOutcome)
    // the request goes on exactly when it is not answered, and then once
    ensures r.reply.None? <==> r.nextCalls == 1
    ensures r.reply.Some? <==> r.nextCalls == 0
    ensures r.user.Some? <==> r.nextCalls == 1
    // a passed request carries the id the auth service vouched for
    ensures r.user.Some? ==> r.checked == Some(BearerToken(header)) && check(BearerToken(header)) == UserFound(r.user.value)
    // the auth service sees only a non-empty token
    ensures r.checked.Some? ==> Truthy(r.checked.value) && dbAvailable
    ensures !dbAvailable ==> r.reply == Some(Reply(500, "Authentication service unavailable.")) && r.checked.None?
    ensures dbAvailable && !Truthy(BearerToken(header)) ==>
      r.reply == Some(Reply(401, "Unauthorized: No token provided.")) && r.checked.None?
    // every rejection by the auth service is a 401, a crash of it a 500
    ensures r.checked.Some? && r.reply.Some? ==>
      r.reply.value.status == (if check(r.checked.value).CheckThrew? then 500 else 401)
    // every non-empty token is checked, and the auth service's verdict decides
    ensures dbAvailable && Truthy(BearerToken(header)) ==> r.checked == Some(BearerToken(header))
    ensures dbAvailable && Truthy(BearerToken(header)) && check(BearerToken(header)).UserFound? ==>
      r.reply.None? && r.user == Some(check(BearerToken(header)).id) && r.nextCalls == 1
    ensures dbAvailable && Truthy(BearerToken(header)) && check(BearerToken(header)).TokenError? ==>
      r.reply == Some(Reply(401, "Unauthorized: " + check(BearerToken(header)).message))
    ensures dbAvailable && Truthy(BearerToken(header)) && check(BearerToken(header)).NoUser? ==>
      r.reply == Some(Reply(401, InvalidTokenMessage))
    ensures dbAvailable && Truthy(BearerToken(header)) && check(BearerToken(header)).CheckThrew? ==>
      r.reply == Some(Reply(500, AuthCrashMessage))
  {
    if !dbAvailable then Answer(500, "Authentication service unavailable.", None)
    else
      var token := BearerToken(header);
      if !Truthy(token) then Answer(401, "Unauthorized: No token provided.", None)
      else
        match check(token)
        case TokenError(message) => Answer(401, "Unauthorized: " + message, Some(token))
        case NoUser => Answer(401, InvalidTokenMessage, Some(token))
        case CheckThrew => Answer(500, AuthCrashMessage, Some(token))
        case UserFound(id) => AuthOutcome(None, Some(id), 1, Some(token))
  }

  /** The token is the word after the scheme. The scheme word itself is not
      inspected: `Bearer` or anything else without a space is accepted. */
  lemma TokenFollowsScheme(scheme: string, token: string)
    requires ' ' !in scheme && ' ' !in token
    ensures BearerToken(Some(scheme + " " + token)) == token
  {
    var parts := [scheme, token];
    assert Join(parts, ' ') == scheme + " " + token by {
      assert Join(parts[1..], ' ') == token;
    }
    SplitJoin(parts, ' ');
  }

  /** A well-formed `<scheme> <token>` header whose token the auth service
      accepts lets the request through once, as that user. */
  lemma AcceptedTokenPasses(scheme: string, token: string, check: string -> TokenCheck)
    requires ' ' !in scheme && ' ' !in token && Truthy(token) && check(token).UserFound?
    ensures AuthenticateToken(true, Some(scheme + " " + token), check)
      == AuthOutcome(None, Some(check(token).id), 1, Some(token))
  {
    TokenFollowsScheme(scheme, token);
  }

  /** A header with more words keeps only the second: extra words are
      ignored rather than refused. */
  lemma ExtraWordsIgnored(scheme: string, token: string, extra: string)
    requires ' ' !in scheme && ' ' !in token && ' ' !in extra
    ensures BearerToken(Some(scheme + " " + token + " " + extra)) == token
  {
    var parts := [scheme, token, extra];
    assert Join(parts, ' ') == scheme + " " + token + " " + extra by {
      assert Join(parts[2..], ' ') == extra;
      assert parts[1..][1..] == parts[2..];
      assert Join(parts[1..], ' ') == token + " " + extra;
    }
    SplitJoin(parts, ' ');
  }

  /** Two spaces after the scheme leave an empty second word, so the
      request is refused as carrying no token. */
  lemma DoubleSpaceHasNoToken(scheme: string, token: string, check: string -> TokenCheck)
    requires ' ' !in scheme && ' ' !in token
    ensures AuthenticateToken(true, Some(scheme + "  " + token), check).reply
      == Some(Reply(401, "Unauthorized: No token provided."))
  {
    var parts := [scheme, "", token];
    assert Join(parts, ' ') == scheme + "  " + token by {
      assert Join(parts[2..], ' ') == token;
      assert parts[1..][1..] == parts[2..];
      assert Join(parts[1..], ' ') == " " + token;
    }
    SplitJoin(parts, ' ');
  }
}

=== FILE: dashboard.dfy ===
/**
  The portfolio page of the web client: the certificate download (its file
  name taken from `Content-Disposition` with the regular expression
  `/filename="?(.+)"?/i`, and its progress marker) and the normalisation of
  the `files` relation the records query returns.
 */
module Dashboard {
  import opened Wrappers
  import opened Text
  import Store

  // ---------------------------------------------------------------------
  // The regular expression /filename="?(.+)"?/i

  /** The characters `.` does not match. */
  predicate IsLineTerminator(c: char) {
    c == '\n' || c == '\r' || c == '\U{2028}' || c == '\U{2029}'
  }

  predicate NoLineTerminator(s: string) {
    forall k :: 0 <= k < |s| ==> !IsLineTerminator(s[k])
  }

  /** How many characters from `p` on `.+` can take: up to the next line
      terminator or the end. */
  function RunLength(s: string, p: nat): (n: nat)
    requires p <= |s|
    ensures p + n <= |s|
    ensures NoLineTerminator(s[p..p + n])
    ensures p + n == |s| || IsLineTerminator(s[p + n])
    decreases |s| - p
  {
    if p == |s| || IsLineTerminator(s[p]) then 0
    else
      var n := RunLength(s, p + 1);
      assert s[p..p + 1 + n] == [s[p]] + s[p + 1..p + 1 + n];
      1 + n
  }

  const Key: string := "filename="

  /** `filename=` at `i`, the letters in either case. */
  predicate KeyAt(s: string, i: nat) {
    i + |Key| <= |s| && EqualsIgnoreCase(s[i..i + 8], Key[..8]) && s[i + 8] == '='
  }

  /** The capture group of a match starting at `i`, if the pattern matches
      there. `"?` first tries to take a quote; `.+` is greedy, so the
      trailing `"?` always matches empty and a closing quote stays in the
      group. Backtracking gives up the opening quote only when nothing
      follows it. */
  function CaptureAt(s: string, i: nat): (r: Option<string>)
    requires KeyAt(s, i)
    ensures r.Some? ==> |r.value| >= 1 && NoLineTerminator(r.value)
    ensures r.None? <==> i + |Key| == |s| || IsLineTerminator(s[i + |Key|])
  {
    var p := i + |Key|;
    if p < |s| && s[p] == '"' && RunLength(s, p + 1) >= 1 then
      Some(s[p + 1..p + 1 + RunLength(s, p + 1)])
    else if RunLength(s, p) >= 1 then Some(s[p..p + RunLength(s, p)])
    else None
  }

  /** `header.match(...)[1]` searching from `from`: the capture of the
      leftmost position where the pattern matches. */
  function MatchFrom(s: string, from: nat): (r: Option<string>)
    ensures r.Some? ==> exists i :: from <= i < |s| && KeyAt(s, i) && CaptureAt(s, i) == r
    decreases |s| - from
  {
    if from >= |s| then None
    else if KeyAt(s, from) && CaptureAt(s, from).Some? then CaptureAt(s, from)
    else MatchFrom(s, from + 1)
  }

  /** The leftmost match wins: with no match before `i`, the match at `i`
      is the one reported. */
  lemma {:induction false} LeftmostMatch(s: string, from: nat, i: nat)
    requires from <= i && KeyAt(s, i) && CaptureAt(s, i).Some?
    requires forall j :: from <= j < i && KeyAt(s, j) ==> CaptureAt(s, j).None?
    ensures MatchFrom(s, from) == CaptureAt(s, i)
    decreases i - from
  {
    if from < i {
      LeftmostMatch(s, from + 1, i);
    }
  }

  /** The file name the download is saved under. `contentDisposition` is ""
      when the response has no such header. */
  function DownloadName(recordId: string, contentDisposition: string): (name: string)
    ensures !Truthy(contentDisposition) ==> name == "certificate-" + recordId + ".pdf"
    ensures MatchFrom(contentDisposition, 0).None? ==> name == "certificate-" + recordId + ".pdf"
  {
    var fallback := "certificate-" + recordId + ".pdf";
    if Truthy(contentDisposition) then
      match MatchFrom(contentDisposition, 0)
      case Some(g) => g
      case None => fallback
    else fallback
  }

  lemma NoLineTerminatorConcat(a: string, b: string)
    requires NoLineTerminator(a) && NoLineTerminator(b)
    ensures NoLineTerminator(a + b)
  {
    assert forall k :: |a| <= k < |a + b| ==> (a + b)[k] == b[k - |a|];
  }

  /** On a line without terminators `.+` takes everything to the end. */
  lemma RunToEnd(s: string, p: nat)
    requires p <= |s| && NoLineTerminator(s[p..])
    ensures RunLength(s, p) == |s| - p
  {
    var n := RunLength(s, p);
    if p + n < |s| {
      assert s[p + n] == s[p..][n];
    }
  }

  /** After `filename="` the group is the rest of the line, closing quote
      included. */
  lemma QuotedCapture(s: string, i: nat)
    requires KeyAt(s, i) && i + |Key| + 1 < |s| && s[i + |Key|] == '"'
    requires NoLineTerminator(s[i + |Key| + 1..])
    ensures CaptureAt(s, i) == Some(s[i + |Key| + 1..])
  {
    RunToEnd(s, i + |Key| + 1);
    assert s[i + |Key| + 1..|s|] == s[i + |Key| + 1..];
  }

  /** After an unquoted `filename=` the group is the rest of the line. */
  lemma UnquotedCapture(s: string, i: nat)
    requires KeyAt(s, i) && i + |Key| < |s| && s[i + |Key|] != '"'
    requires NoLineTerminator(s[i + |Key|..])
    ensures CaptureAt(s, i) == Some(s[i + |Key|..])
  {
    RunToEnd(s, i + |Key|);
    assert s[i + |Key|..|s|] == s[i + |Key|..];
  }

  const ServerPrefix: string := "attachment; filename=\""

  /** The header the certificate endpoint sends is read back with its
      closing quote still attached: the saved name ends in `.pdf"`. */
  lemma ServerHeaderKeepsClosingQuote(recordId: string)
    requires NoLineTerminator(recordId)
    ensures DownloadName(recordId, "attachment; filename=\"certificate-" + recordId + ".pdf\"")
      == "certificate-" + recordId + ".pdf\""
  {
    var name := "certificate-" + recordId + ".pdf\"";
    NoLineTerminatorConcat("certificate-", recordId);
    NoLineTerminatorConcat("certificate-" + recordId, ".pdf\"");
    var s := ServerPrefix + name;
    assert s == "attachment; filename=\"certificate-" + recordId + ".pdf\"";
    assert s[..22] == ServerPrefix;
    assert s[12..21] == ServerPrefix[12..21] == Key;
    assert KeyAt(s, 12);
    assert s[22..] == name;
    QuotedCapture(s, 12);
    forall j | 0 <= j < 12
      ensures !KeyAt(s, j)
    {
      assert s[j] == ServerPrefix[j];
      assert AsciiLower(s[j]) != AsciiLower(Key[0]);
    }
    LeftmostMatch(s, 0, 12);
  }

  /** An unquoted name at the start of the header is read back exactly. */
  lemma UnquotedNameIsExact(recordId: string, name: string)
    requires |name| >= 1 && name[0] != '"' && NoLineTerminator(name)
    ensures DownloadName(recordId, Key + name) == name
  {
    var s := Key + name;
    assert s[..9] == Key;
    assert s[9..] == name;
    UnquotedCapture(s, 0);
  }

  // ---------------------------------------------------------------------
  // The download handler

  /** What `auth.getSession()` gives: its error message ("" when there is
      none) and whether a session exists. */
  datatype SessionState = SessionState(errorMessage: string, hasSession: bool, errored: bool)

  /** The outcome of the `axios.get` of the certificate: a 2xx response with
      its status and the `Content-Disposition` value the page can read (""
      when the header is absent or withheld from the page), or a rejection
      with the server's reply, if one came, and the error's own message.
      The request asks for `responseType: 'blob'`, so a rejected reply's
      JSON body arrives as a Blob and has no `message` field to read. */
  datatype CertificateFetch =
    | Fetched(status: nat, contentDisposition: string)
    | FetchFailed(response: Option<Store.Reply>, errorMessage: string)

  /** `downloadingMarkers` lists the values `downloadingCert` is set to, in
      order; `downloadError` is the last value of that state. */
  datatype DownloadOutcome = DownloadOutcome(
    downloadingMarkers: seq<Option<string>>, downloadError: Option<string>, savedAs: Option<string>)

  const DownloadFailedMessage: string := "Failed to download certificate."

  /** `a || b`. */
  function Or(a: string, b: string): string {
    if Truthy(a) then a else b
  }

  const UnexpectedStatusPrefix: string := "Failed to download certificate (status: "

  /** The error for a resolved reply whose status is not 200, naming the
      status in decimal. */
  function UnexpectedStatusMessage(status: nat): (m: string)
    ensures |m| > |UnexpectedStatusPrefix| + 1 && m[..|UnexpectedStatusPrefix|] == UnexpectedStatusPrefix && m[|m| - 1] == ')'
    ensures IsNumeral(m[|UnexpectedStatusPrefix|..|m| - 1], 10)
    ensures ParseRadix(m[|UnexpectedStatusPrefix|..|m| - 1], 10) == status
  {
    var digits := RadixString(status, 10);
    var m := UnexpectedStatusPrefix + digits + ")";
    assert m[..|UnexpectedStatusPrefix|] == UnexpectedStatusPrefix;
    assert m[|UnexpectedStatusPrefix|..|m| - 1] == digits;
    RadixRoundTrip(status, 10);
    m
  }

  /** `handleDownloadCertificate`. The fetch is requested only with a
      session; `fetch` is its outcome. */
  function DownloadCertificate(recordId: string, session: SessionState, fetch: CertificateFetch): (r: DownloadOutcome)
    // the marker is raised for this record and always cleared at the end
    ensures r.downloadingMarkers == [Some(recordId), None]
    // either a file is saved or an error is shown, never both
    ensures r.savedAs.Some? <==> r.downloadError.None?
    ensures r.savedAs.Some? ==>
      !session.errored && session.hasSession && fetch.Fetched? && fetch.status == 200
      && r.savedAs.value == DownloadName(recordId, fetch.contentDisposition)
    ensures r.downloadError.Some? ==> Truthy(r.downloadError.value)
    ensures (session.errored || !session.hasSession) ==>
      r.downloadError == Some(Or(session.errorMessage, "User not authenticated."))
    // a rejection shows the error's own message, whatever the reply said
    ensures !session.errored && session.hasSession && fetch.FetchFailed? ==>
      r.downloadError == Some(Or(fetch.errorMessage, DownloadFailedMessage))
    // with a session, a 200 is saved under the name read from the header
    ensures !session.errored && session.hasSession && fetch.Fetched? && fetch.status == 200 ==>
      r.savedAs == Some(DownloadName(recordId, fetch.contentDisposition))
    // any other 2xx status is reported with its number
    ensures !session.errored && session.hasSession && fetch.Fetched? && fetch.status != 200 ==>
      r.downloadError == Some(UnexpectedStatusMessage(fetch.status))
  {
    var result: Result<string, string> :=
      if session.errored || !session.hasSession then
        Failure(Or(session.errorMessage, "User not authenticated."))
      else
        match fetch
        case FetchFailed(_, message) => Failure(Or(message, DownloadFailedMessage))
        case Fetched(status, header) =>
          if status != 200 then
            Failure(UnexpectedStatusMessage(status))
          else Success(DownloadName(recordId, header));
    match result
    case Success(name) => DownloadOutcome([Some(recordId), None], None, Some(name))
    case Failure(message) => DownloadOutcome([Some(recordId), None], Some(message), None)
  }

  /** The server's message never reaches the page: a rejected download shows
      the message axios makes up from the status, and rewording the reply
      changes nothing. */
  lemma ServerMessageIsNotShown(recordId: string, session: SessionState, reply: Store.Reply, other: string)
    requires !session.errored && session.hasSession
    ensures var shown := DownloadCertificate(recordId, session,
                           FetchFailed(Some(reply), Store.AxiosStatusMessage(reply.status))).downloadError;
      && shown == Some(Store.AxiosStatusMessage(reply.status))
      && shown == DownloadCertificate(recordId, session,
                    FetchFailed(Some(reply.(message := other)), Store.AxiosStatusMessage(reply.status))).downloadError
  {
  }

  // ---------------------------------------------------------------------
  // Normalising the records query

  /** The embedded `files` object the page keeps. */
  datatype FileSummary = FileSummary(id: string, originalFilename: string, sha256Hash: string, storageRef: string)

  /** How the `files` relation can come back: missing or null, one object,
      or an array of objects. */
  datatype FilesField = Absent | Single(file: FileSummary) | Many(items: seq<FileSummary>)

  function NormalizeFiles(x: FilesField): (r: Option<FileSummary>)
    ensures x.Absent? ==> r.None?
    ensures x.Single? ==> r == Some(x.file)
    ensures x.Many? ==> (r.None? <==> x.items == []) && (r.Some? ==> r.value == x.items[0])
  {
    match x
    case Absent => None
    case Single(f) => Some(f)
    case Many(items) => if |items| > 0 then Some(items[0]) else None
  }

  /** The shape in which it arrives is forgotten: normalising the
      normalised form changes nothing. */
  lemma NormalizeFilesIdempotent(x: FilesField)
    ensures NormalizeFiles(match NormalizeFiles(x) case None => Absent case Some(f) => Single(f)) == NormalizeFiles(x)
    ensures NormalizeFiles(x).None? || NormalizeFiles(Many([NormalizeFiles(x).value])) == NormalizeFiles(x)
  {
  }
}

=== FILE: file_controller.dfy ===
/**
  The two authenticated file endpoints: `POST /files/upload` prepares an
  asset for minting (usage-quota gate, hashing, pinning the file and its
  metadata JSON) and `POST /files/confirm-mint` records a mint the client
  reports (a `files` row, then an `ip_records` row, then a best-effort usage
  increment).
 */
module FileController {
  import opened Wrappers
  import opened Text
  import opened Store

  const FreeTierRecordLimit: int := 5
  const FreeTierStorageLimitBytes: int := 100 * 1024 * 1024

  const IpfsScheme: string := "ipfs://"

  /** `ipfs://<cid>`, the URI form of a content identifier. */
  function IpfsUri(cid: string): (uri: string)
    ensures IpfsScheme <= uri && uri[|IpfsScheme|..] == cid
  {
    IpfsScheme + cid
  }

  // ---------------------------------------------------------------------
  // Usage-quota gate

  datatype UsageVerdict = WithinLimits | RecordLimitReached | StorageLimitExceeded

  /** The free-tier gate: the lifetime record count is checked first, then
      the storage total including the incoming file. */
  function CheckUsage(profile: Profile, incomingBytes: int): (v: UsageVerdict)
    ensures v == RecordLimitReached <==> profile.recordCount >= FreeTierRecordLimit
    ensures v == StorageLimitExceeded <==>
      profile.recordCount < FreeTierRecordLimit
      && profile.storageUsedBytes + incomingBytes > FreeTierStorageLimitBytes
  {
    if profile.recordCount >= FreeTierRecordLimit then RecordLimitReached
    else if profile.storageUsedBytes + incomingBytes > FreeTierStorageLimitBytes then StorageLimitExceeded
    else WithinLimits
  }

  /** A file that brings the total to exactly 100 MiB is still allowed. */
  lemma StorageLimitIsInclusive(profile: Profile, incomingBytes: int)
    requires profile.recordCount < FreeTierRecordLimit
    requires profile.storageUsedBytes + incomingBytes == 104857600
    ensures CheckUsage(profile, incomingBytes) == WithinLimits
  {
  }

  const RecordLimitMessage: string := "Innovator tier lifetime record limit (5) reached. Please upgrade."
  const StorageLimitMessage: string := "Innovator tier storage limit (100MB) exceeded. Please upgrade."

  // ---------------------------------------------------------------------
  // Upload preparation

  /** The multipart file as multer hands it over; its size is the buffer's. */
  datatype UploadedFile = UploadedFile(originalName: string, mimeType: string, buffer: Bytes)

  /** `userId` is `req.user?.id`, "" when the request carries no user. */
  datatype UploadRequest = UploadRequest(file: Option<UploadedFile>, userId: string)

  datatype MetadataProperties = MetadataProperties(
    fileHash: string, mimeType: string, sizeBytes: nat, originalFilename: string)

  /** The NFT metadata JSON pinned next to the asset. */
  datatype NftMetadata = NftMetadata(
    name: string, description: string, image: string, properties: MetadataProperties)

  /** The calls the upload handler issues to outside services, in order. */
  datatype Effect =
    | ReadProfile(userId: string)
    | ComputeHash
    | PinFile(fileName: string)
    | PinMetadata(json: NftMetadata, fileName: string)

  /** Answers of the outside services: whether the database client exists,
      whether the profile read errors, and the CIDs the two pins return
      ("" when a pin returns null). */
  datatype UploadOracles = UploadOracles(
    dbAvailable: bool, profileReadFails: bool, pinnedFileCid: string, pinnedMetadataCid: string)

  /** The 200 body: what the client needs to mint. */
  datatype PreparedMint = PreparedMint(
    tokenUri: string, fileHash: string, fileCid: string, originalFilename: string)

  datatype UploadResponse = UploadResponse(reply: Reply, prepared: Option<PreparedMint>, effects: seq<Effect>)

  function AssetDescription(filename: string): string {
    "Timestamped asset: " + filename
  }

  function BuildMetadata(file: UploadedFile, hash: string, fileCid: string): (m: NftMetadata)
    ensures m.name == file.originalName && m.image == IpfsUri(fileCid)
    ensures m.properties.fileHash == hash && m.properties.sizeBytes == |file.buffer|
  {
    NftMetadata(
      file.originalName,
      AssetDescription(file.originalName),
      IpfsUri(fileCid),
      MetadataProperties(hash, file.mimeType, |file.buffer|, file.originalName))
  }

  predicate IsPin(e: Effect) {
    e.PinFile? || e.PinMetadata?
  }

  /** `handleFileUpload`. The handler writes nothing to the database, so the
      store is only read. */
  function HandleFileUpload(req: UploadRequest, db: Db, sha: Sha256, o: UploadOracles): (r: UploadResponse)
    // validation happens before any outside call
    ensures req.file.None? ==> r.reply.status == 400 && r.effects == []
    ensures req.file.Some? && !Truthy(req.userId) ==> r.reply.status == 401 && r.effects == []
    // the profile read precedes every hash and pin
    ensures ComputeHash in r.effects || (exists e :: e in r.effects && IsPin(e)) ==>
      |r.effects| >= 2 && r.effects[0] == ReadProfile(req.userId) && r.effects[1] == ComputeHash
      && !o.profileReadFails && req.userId in db.profiles
      && req.file.Some? && CheckUsage(db.profiles[req.userId], |req.file.value.buffer|) == WithinLimits
    ensures req.file.Some? && Truthy(req.userId) && !o.dbAvailable ==> r.reply.status == 500 && r.effects == []
    // a profile row that is missing is reported as a failed read
    ensures (req.file.Some? && Truthy(req.userId) && o.dbAvailable
             && (o.profileReadFails || req.userId !in db.profiles)) ==>
      r.reply == Reply(500, "Could not verify usage limits.") && r.effects == [ReadProfile(req.userId)]
    // within limits, the reply is 200 exactly when both pins return a CID
    ensures (req.file.Some? && Truthy(req.userId) && o.dbAvailable && !o.profileReadFails
             && req.userId in db.profiles
             && CheckUsage(db.profiles[req.userId], |req.file.value.buffer|) == WithinLimits) ==>
      (r.reply.status == 200 <==> Truthy(o.pinnedFileCid) && Truthy(o.pinnedMetadataCid))
    // a quota rejection neither hashes nor pins
    ensures r.reply.status == 403 ==> r.effects == [ReadProfile(req.userId)]
    // the metadata is pinned only after the file pin returned a CID
    ensures (exists e :: e in r.effects && e.PinMetadata?) ==> Truthy(o.pinnedFileCid)
    ensures r.prepared.Some? <==> r.reply.status == 200
    ensures r.prepared.Some? ==>
      && req.file.Some?
      && var p := r.prepared.value;
      && var f := req.file.value;
      && p.tokenUri == IpfsUri(o.pinnedMetadataCid) && Truthy(o.pinnedMetadataCid)
      && p.fileCid == o.pinnedFileCid && Truthy(p.fileCid)
      && p.fileHash == sha(f.buffer)
      && p.originalFilename == f.originalName
      && |r.effects| == 4
      && r.effects[3] == PinMetadata(BuildMetadata(f, p.fileHash, p.fileCid), p.fileCid + ".json")
  {
    if req.file.None? then
      UploadResponse(Reply(400, "No file uploaded."), None, [])
    else
      var file := req.file.value;
      if !Truthy(req.userId) then
        UploadResponse(Reply(401, "User authentication failed unexpectedly."), None, [])
      else if !o.dbAvailable then
        UploadResponse(Reply(500, "Database service unavailable."), None, [])
      else
        var read := [ReadProfile(req.userId)];
        // `.single()` on a missing profile row reports an error, so a
        // missing profile takes the same 500 branch as a failed read
        if o.profileReadFails || req.userId !in db.profiles then
          UploadResponse(Reply(500, "Could not verify usage limits."), None, read)
        else
          match CheckUsage(db.profiles[req.userId], |file.buffer|)
          case RecordLimitReached =>
            UploadResponse(Reply(403, RecordLimitMessage), None, read)
          case StorageLimitExceeded =>
            UploadResponse(Reply(403, StorageLimitMessage), None, read)
          case WithinLimits =>
            var hash := sha(file.buffer);
            var pinned := read + [ComputeHash, PinFile(file.originalName)];
            if !Truthy(o.pinnedFileCid) then
              UploadResponse(Reply(500, "Failed to upload file to IPFS."), None, pinned)
            else
              var fileCid := o.pinnedFileCid;
              var metadata := BuildMetadata(file, hash, fileCid);
              var all := pinned + [PinMetadata(metadata, fileCid + ".json")];
              if !Truthy(o.pinnedMetadataCid) then
                UploadResponse(Reply(500, "Failed to upload metadata JSON to IPFS."), None, all)
              else
                UploadResponse(
                  Reply(200, "File uploaded and metadata prepared for minting."),
                  Some(PreparedMint(IpfsUri(o.pinnedMetadataCid), hash, fileCid, file.originalName)),
                  all)
  }

  /** The record limit is checked first: a user over both limits gets the
      record-limit message, and nothing is hashed or pinned. */
  lemma QuotaRejectionPrecedesHashing(req: UploadRequest, db: Db, sha: Sha256, o: UploadOracles)
    requires req.file.Some? && Truthy(req.userId) && o.dbAvailable && !o.profileReadFails
    requires req.userId in db.profiles && db.profiles[req.userId].recordCount >= FreeTierRecordLimit
    ensures HandleFileUpload(req, db, sha, o).reply == Reply(403, RecordLimitMessage)
    ensures ComputeHash !in HandleFileUpload(req, db, sha, o).effects
  {
  }

  /** Storage is rejected only when the total would pass 100 MiB. */
  lemma StorageRejectionIff(req: UploadRequest, db: Db, sha: Sha256, o: UploadOracles)
    requires req.file.Some? && Truthy(req.userId) && o.dbAvailable && !o.profileReadFails
    requires req.userId in db.profiles && db.profiles[req.userId].recordCount < FreeTierRecordLimit
    ensures HandleFileUpload(req, db, sha, o).reply == Reply(403, StorageLimitMessage)
      <==> db.profiles[req.userId].storageUsedBytes + |req.file.value.buffer| > FreeTierStorageLimitBytes
  {
  }

  /** A failed file pin aborts with 500 before the metadata is built or pinned. */
  lemma FilePinFailureSkipsMetadata(req: UploadRequest, db: Db, sha: Sha256, o: UploadOracles)
    requires req.file.Some? && Truthy(req.userId) && o.dbAvailable && !o.profileReadFails
    requires req.userId in db.profiles
    requires CheckUsage(db.profiles[req.userId], |req.file.value.buffer|) == WithinLimits
    requires !Truthy(o.pinnedFileCid)
    ensures HandleFileUpload(req, db, sha, o).reply == Reply(500, "Failed to upload file to IPFS.")
    ensures forall e :: e in HandleFileUpload(req, db, sha, o).effects ==> !e.PinMetadata?
  {
  }

  // ---------------------------------------------------------------------
  // Mint confirmation

  /** The JSON body of `confirm-mint`; an absent field is "" (or 0 for the size). */
  datatype MintDetails = MintDetails(
    txHash: string,
    tokenId: string,
    fileHash: string,
    fileCid: string,
    metadataCid: string,
    originalFilename: string,
    mimeType: string,
    sizeBytes: int)

  datatype ConfirmRequest = ConfirmRequest(userId: string, details: MintDetails)

  /** Answers of the database: whether the client exists, what each insert
      reports, whether the `increment_user_usage` RPC errors, the configured
      contract address ("" when unset), and the `created_at` the database
      stamps on the new `ip_records` row. */
  datatype ConfirmOracles = ConfirmOracles(
    dbAvailable: bool,
    fileInsert: InsertOutcome,
    ipInsert: InsertOutcome,
    usageRpcSucceeds: bool,
    contractAddress: string,
    now: string)

  /** The 200 body. */
  datatype ConfirmReceipt = ConfirmReceipt(fileRecordId: string, ipRecordId: string, tokenId: string, txHash: string)

  datatype ConfirmResponse = ConfirmResponse(reply: Reply, receipt: Option<ConfirmReceipt>)

  /** The presence check: every field truthy, so a size of 0 counts as missing. */
  predicate HasRequiredDetails(d: MintDetails) {
    && Truthy(d.txHash) && Truthy(d.tokenId) && Truthy(d.fileHash) && Truthy(d.fileCid)
    && Truthy(d.metadataCid) && Truthy(d.originalFilename) && Truthy(d.mimeType)
    && d.sizeBytes != 0
  }

  function NewFileRow(req: ConfirmRequest, id: string): FileRow {
    var d := req.details;
    FileRow(id, req.userId, d.originalFilename, d.mimeType, d.sizeBytes, d.fileHash, "ipfs", d.fileCid)
  }

  function NewIpRecordRow(req: ConfirmRequest, fileId: string, id: string, o: ConfirmOracles): IpRecordRow {
    var d := req.details;
    IpRecordRow(
      id, req.userId, Some(fileId), d.originalFilename, AssetDescription(d.originalFilename),
      d.txHash, o.contractAddress, d.tokenId, d.metadataCid, "minted", o.now)
  }

  /** What the `increment_user_usage` RPC does when it succeeds: one more
      record and `size` more bytes on the user's profile. */
  function IncrementUsage(profiles: map<string, Profile>, userId: string, size: int): (p: map<string, Profile>)
    ensures p.Keys == profiles.Keys
    ensures userId in profiles ==>
      p[userId].recordCount == profiles[userId].recordCount + 1
      && p[userId].storageUsedBytes == profiles[userId].storageUsedBytes + size
    ensures forall u :: u in profiles && u != userId ==> p[u] == profiles[u]
  {
    if userId in profiles then
      var before := profiles[userId];
      profiles[userId := Profile(before.recordCount + 1, before.storageUsedBytes + size)]
    else profiles
  }

  function DbErrorMessage(detail: string): string {
    "Database error during mint confirmation: " + detail
  }

  /** `handleMintConfirmation`: the reply and the database afterwards. */
  function HandleMintConfirmation(req: ConfirmRequest, db: Db, o: ConfirmOracles): (out: (ConfirmResponse, Db))
    // rows are only ever appended, at most one per table
    ensures Extends(db.files, out.1.files) && |out.1.files| <= |db.files| + 1
    ensures Extends(db.ipRecords, out.1.ipRecords) && |out.1.ipRecords| <= |db.ipRecords| + 1
    // an ip_record is only ever written next to the file row it references
    ensures |out.1.ipRecords| == |db.ipRecords| + 1 ==>
      |out.1.files| == |db.files| + 1
      && out.1.ipRecords[|db.ipRecords|].fileId == Some(out.1.files[|db.files|].id)
    // validation failures write nothing
    ensures !Truthy(req.userId) ==> out.0.reply.status == 401 && out.1 == db
    ensures Truthy(req.userId) && !HasRequiredDetails(req.details) ==> out.0.reply.status == 400 && out.1 == db
    ensures (Truthy(req.userId) && HasRequiredDetails(req.details) && !o.dbAvailable) ==>
      out.0.reply.status == 500 && out.1 == db
    // both inserts returning ids is success, whatever the usage RPC does
    ensures (Truthy(req.userId) && HasRequiredDetails(req.details) && o.dbAvailable
             && o.fileInsert.Inserted? && Truthy(o.fileInsert.id)
             && o.ipInsert.Inserted? && Truthy(o.ipInsert.id)) ==> out.0.reply.status == 200
    ensures out.0.receipt.Some? <==> out.0.reply.status == 200
    ensures out.0.reply.status == 200 ==>
      && Truthy(req.userId) && HasRequiredDetails(req.details)
      && o.dbAvailable && o.fileInsert.Inserted? && Truthy(o.fileInsert.id)
      && o.ipInsert.Inserted? && Truthy(o.ipInsert.id)
      && out.0.receipt == Some(ConfirmReceipt(o.fileInsert.id, o.ipInsert.id, req.details.tokenId, req.details.txHash))
      && out.1.files == db.files + [NewFileRow(req, o.fileInsert.id)]
      && out.1.ipRecords == db.ipRecords + [NewIpRecordRow(req, o.fileInsert.id, o.ipInsert.id, o)]
      && out.1.profiles == (if o.usageRpcSucceeds then IncrementUsage(db.profiles, req.userId, req.details.sizeBytes) else db.profiles)
    ensures out.0.reply.status != 200 ==> out.1.profiles == db.profiles
  {
    if !Truthy(req.userId) then
      (ConfirmResponse(Reply(401, "User authentication failed unexpectedly."), None), db)
    else if !HasRequiredDetails(req.details) then
      (ConfirmResponse(Reply(400, "Missing required minting details."), None), db)
    else if !o.dbAvailable then
      (ConfirmResponse(Reply(500, "Database service unavailable."), None), db)
    else
      match o.fileInsert
      case InsertFailed(m) =>
        (ConfirmResponse(Reply(500, DbErrorMessage(m)), None), db)
      case Inserted(fileId) =>
        var db1 := db.(files := db.files + [NewFileRow(req, fileId)]);
        if !Truthy(fileId) then
          (ConfirmResponse(Reply(500, DbErrorMessage("Failed to retrieve inserted file ID.")), None), db1)
        else
          match o.ipInsert
          case InsertFailed(m) =>
            // no compensating delete: the new files row stays behind
            (ConfirmResponse(Reply(500, DbErrorMessage(m)), None), db1)
          case Inserted(ipId) =>
            var db2 := db1.(ipRecords := db1.ipRecords + [NewIpRecordRow(req, fileId, ipId, o)]);
            if !Truthy(ipId) then
              (ConfirmResponse(Reply(500, DbErrorMessage("Failed to retrieve inserted IP record ID.")), None), db2)
            else
              // the usage RPC is best effort: its failure does not change the reply
              var db3 := if o.usageRpcSucceeds then db2.(profiles := IncrementUsage(db2.profiles, req.userId, req.details.sizeBytes)) else db2;
              (ConfirmResponse(
                Reply(200, "Minting confirmed and records saved successfully."),
                Some(ConfirmReceipt(fileId, ipId, req.details.tokenId, req.details.txHash))), db3)
  }

  /** A failed `files` insert aborts with 500 and leaves the database as it was. */
  lemma FileInsertFailureWritesNothing(req: ConfirmRequest, db: Db, o: ConfirmOracles)
    requires Truthy(req.userId) && HasRequiredDetails(req.details) && o.dbAvailable
    requires o.fileInsert.InsertFailed?
    ensures HandleMintConfirmation(req, db, o).0.reply.status == 500
    ensures HandleMintConfirmation(req, db, o).1 == db
  {
  }

  /** A failed `ip_records` insert answers 500 but leaves the new `files` row
      behind: the orphan row. */
  lemma IpInsertFailureLeavesOrphan(req: ConfirmRequest, db: Db, o: ConfirmOracles)
    requires Truthy(req.userId) && HasRequiredDetails(req.details) && o.dbAvailable
    requires o.fileInsert.Inserted? && Truthy(o.fileInsert.id) && o.ipInsert.InsertFailed?
    ensures HandleMintConfirmation(req, db, o).0.reply.status == 500
    ensures HandleMintConfirmation(req, db, o).1 == db.(files := db.files + [NewFileRow(req, o.fileInsert.id)])
  {
  }

  /** A failed usage RPC still confirms the mint. */
  lemma UsageFailureStillConfirms(req: ConfirmRequest, db: Db, o: ConfirmOracles)
    requires Truthy(req.userId) && HasRequiredDetails(req.details) && o.dbAvailable
    requires o.fileInsert.Inserted? && Truthy(o.fileInsert.id)
    requires o.ipInsert.Inserted? && Truthy(o.ipInsert.id)
    requires !o.usageRpcSucceeds
    ensures HandleMintConfirmation(req, db, o).0.reply.status == 200
    ensures HandleMintConfirmation(req, db, o).1.profiles == db.profiles
    ensures HandleMintConfirmation(req, db, o).1.ipRecords[|db.ipRecords|].status == "minted"
  {
  }
}

=== FILE: ip_nft.dfy ===
/**
  The IP NFT contract as its tests describe it: an ERC-721 registry (EIP-721)
  with per-token URIs, ids handed out from a counter starting at 0, an
  owner-only burn, and EIP-165 interface detection. Reverts are the failure
  side of a `Result`, carrying the custom error the contract raises.
 */
module IpNft {
  import opened Wrappers

  type Address = string

  const ZeroAddress: Address := "0x0000000000000000000000000000000000000000"

  /** The `Transfer(from, to, tokenId)` event of EIP-721. */
  datatype TransferEvent = Transfer(from: Address, to: Address, tokenId: nat)

  /** The custom errors a call can revert with. */
  datatype NftError =
    | ERC721NonexistentToken(tokenId: nat)
    | ERC721InsufficientApproval(operator: Address, tokenId: nat)
    | ERC721InvalidReceiver(receiver: Address)

  /** The contract's storage: its name and symbol, the next id to hand out,
      the owner of each existing token and the URI stored for each minted
      token. */
  datatype Registry = Registry(
    name: string, symbol: string, nextTokenId: nat,
    owners: map<nat, Address>, uris: map<nat, string>)

  /** Every existing token was minted (its id is below the counter, it has a
      URI) and is owned by a real address. */
  predicate Valid(reg: Registry) {
    && (forall id :: id in reg.owners ==> id < reg.nextTokenId && id in reg.uris)
    && (forall id :: id in reg.owners ==> reg.owners[id] != ZeroAddress)
  }

  /** `ownerOf`. */
  function OwnerOf(reg: Registry, id: nat): (r: Result<Address, NftError>)
    ensures r.Success? <==> id in reg.owners
    ensures r.Failure? ==> r.error == ERC721NonexistentToken(id)
    ensures Valid(reg) && r.Success? ==> r.value != ZeroAddress
  {
    if id in reg.owners then Success(reg.owners[id]) else Failure(ERC721NonexistentToken(id))
  }

  /** `tokenURI`: the stored URI of an existing token (the base URI is
      empty). */
  function TokenUri(reg: Registry, id: nat): (r: Result<string, NftError>)
    ensures r.Success? <==> OwnerOf(reg, id).Success?
    ensures r.Failure? ==> r.error == ERC721NonexistentToken(id)
    ensures Valid(reg) && r.Success? ==> r.value == reg.uris[id]
  {
    if id !in reg.owners then Failure(ERC721NonexistentToken(id))
    else if id in reg.uris then Success(reg.uris[id])
    else Success("")
  }

  /** The constructor: name and symbol are fixed here and no token exists. */
  function Deploy(name: string, symbol: string): (reg: Registry)
    ensures Valid(reg) && reg.name == name && reg.symbol == symbol
    ensures forall id: nat :: OwnerOf(reg, id) == Failure(ERC721NonexistentToken(id))
    ensures forall id: nat :: TokenUri(reg, id) == Failure(ERC721NonexistentToken(id))
  {
    Registry(name, symbol, 0, map[], map[])
  }

  /** What a successful mint gives: the new storage, the id returned and
      the event emitted. */
  datatype Minted = Minted(registry: Registry, tokenId: nat, event: TransferEvent)

  /** `safeMint(to, uri)`, open to any caller. Minting to the zero address
      is refused, as EIP-721 requires of every transfer. */
  function SafeMint(reg: Registry, to: Address, uri: string): (r: Result<Minted, NftError>)
    requires Valid(reg)
    ensures r.Failure? <==> to == ZeroAddress
    ensures r.Failure? ==> r.error == ERC721InvalidReceiver(ZeroAddress)
    ensures r.Success? ==>
      var m := r.value;
      // the counter's id is returned and the counter moves on
      && m.tokenId == reg.nextTokenId && m.registry.nextTokenId == reg.nextTokenId + 1
      && Valid(m.registry)
      && OwnerOf(m.registry, m.tokenId) == Success(to)
      && TokenUri(m.registry, m.tokenId) == Success(uri)
      // a mint is a transfer from the zero address
      && m.event == Transfer(ZeroAddress, to, m.tokenId)
      // nothing else changes
      && m.registry.name == reg.name && m.registry.symbol == reg.symbol
      && (forall id: nat :: id != m.tokenId ==>
            OwnerOf(m.registry, id) == OwnerOf(reg, id) && TokenUri(m.registry, id) == TokenUri(reg, id))
  {
    if to == ZeroAddress then Failure(ERC721InvalidReceiver(ZeroAddress))
    else
      var id := reg.nextTokenId;
      var next := reg.(nextTokenId := id + 1, owners := reg.owners[id := to], uris := reg.uris[id := uri]);
      Success(Minted(next, id, Transfer(ZeroAddress, to, id)))
  }

  /** What a successful burn gives: the new storage and the event. */
  datatype Burned = Burned(registry: Registry, event: TransferEvent)

  /** `burn(id)` called by `caller`. Approvals are not modelled, so only the
      owner is authorised. */
  function Burn(reg: Registry, caller: Address, id: nat): (r: Result<Burned, NftError>)
    requires Valid(reg)
    ensures OwnerOf(reg, id).Failure? ==> r == Failure(ERC721NonexistentToken(id))
    ensures OwnerOf(reg, id).Success? && OwnerOf(reg, id).value != caller ==>
      r == Failure(ERC721InsufficientApproval(caller, id))
    ensures r.Success? <==> OwnerOf(reg, id) == Success(caller)
    ensures r.Success? ==>
      var b := r.value;
      && b.event == Transfer(caller, ZeroAddress, id)
      && Valid(b.registry)
      // the token is gone, and with it its URI
      && OwnerOf(b.registry, id) == Failure(ERC721NonexistentToken(id))
      && TokenUri(b.registry, id) == Failure(ERC721NonexistentToken(id))
      // ids are never handed out again
      && b.registry.nextTokenId == reg.nextTokenId
      && b.registry.name == reg.name && b.registry.symbol == reg.symbol
      && (forall j: nat :: j != id ==>
            OwnerOf(b.registry, j) == OwnerOf(reg, j) && TokenUri(b.registry, j) == TokenUri(reg, j))
  {
    if id !in reg.owners then Failure(ERC721NonexistentToken(id))
    else if reg.owners[id] != caller then Failure(ERC721InsufficientApproval(caller, id))
    else
      var owner := reg.owners[id];
      Success(Burned(reg.(owners := reg.owners - {id}), Transfer(owner, ZeroAddress, id)))
  }

  // ---------------------------------------------------------------------
  // Interface detection

  const Erc165InterfaceId: nat := 0x01ffc9a7
  const Erc721InterfaceId: nat := 0x80ac58cd
  const Erc721MetadataInterfaceId: nat := 0x5b5e139f
  /** The id EIP-165 reserves as never supported. */
  const InvalidInterfaceId: nat := 0xffffffff

  /** `supportsInterface`. */
  function SupportsInterface(interfaceId: nat): (r: bool)
    ensures r ==> interfaceId != InvalidInterfaceId
    ensures interfaceId == Erc721InterfaceId || interfaceId == Erc721MetadataInterfaceId ==> r
    ensures r ==> interfaceId in {Erc165InterfaceId, Erc721InterfaceId, Erc721MetadataInterfaceId}
  {
    interfaceId == Erc165InterfaceId || interfaceId == Erc721InterfaceId || interfaceId == Erc721MetadataInterfaceId
  }

  // ---------------------------------------------------------------------
  // Sequences of calls

  /** One `safeMint` call: recipient and URI. */
  datatype MintCall = MintCall(to: Address, uri: string)

  /** The ids a run of `safeMint` calls returns, and the storage after it;
      None if one of them reverts. */
  function MintAll(reg: Registry, calls: seq<MintCall>): (r: Option<(Registry, seq<nat>)>)
    requires Valid(reg)
    ensures r.Some? ==> Valid(r.value.0) && |r.value.1| == |calls|
    decreases |calls|
  {
    if |calls| == 0 then Some((reg, []))
    else
      match SafeMint(reg, calls[0].to, calls[0].uri)
      case Failure(_) => None
      case Success(m) =>
        match MintAll(m.registry, calls[1..])
        case None => None
        case Some((last, ids)) => Some((last, [m.tokenId] + ids))
  }

  /** Mints to real addresses never revert, and they receive the ids that
      follow the counter, one after another, whoever the recipients are;
      each recipient owns its token with its URI. */
  lemma {:induction false} MintsAreSequential(reg: Registry, calls: seq<MintCall>)
    requires Valid(reg)
    requires forall k :: 0 <= k < |calls| ==> calls[k].to != ZeroAddress
    ensures MintAll(reg, calls).Some?
    ensures forall k :: 0 <= k < |calls| ==> MintAll(reg, calls).value.1[k] == reg.nextTokenId + k
    ensures MintAll(reg, calls).value.0.nextTokenId == reg.nextTokenId + |calls|
    ensures forall k :: 0 <= k < |calls| ==>
      && OwnerOf(MintAll(reg, calls).value.0, reg.nextTokenId + k) == Success(calls[k].to)
      && TokenUri(MintAll(reg, calls).value.0, reg.nextTokenId + k) == Success(calls[k].uri)
    decreases |calls|
  {
    if |calls| > 0 {
      var m := SafeMint(reg, calls[0].to, calls[0].uri).value;
      var rest := calls[1..];
      assert forall k :: 0 <= k < |rest| ==> rest[k] == calls[k + 1];
      MintsAreSequential(m.registry, rest);
      var (last, ids) := MintAll(m.registry, rest).value;
      assert MintAll(reg, calls) == Some((last, [m.tokenId] + ids));
      // the first token is not touched by the later mints
      MintsPreserveEarlier(m.registry, rest, m.tokenId);
      forall k | 0 <= k < |calls|
        ensures ([m.tokenId] + ids)[k] == reg.nextTokenId + k
        ensures OwnerOf(last, reg.nextTokenId + k) == Success(calls[k].to)
        ensures TokenUri(last, reg.nextTokenId + k) == Success(calls[k].uri)
      {
        if k > 0 {
          assert ([m.tokenId] + ids)[k] == ids[k - 1];
          assert m.registry.nextTokenId + (k - 1) == reg.nextTokenId + k;
        }
      }
    }
  }

  /** Later mints leave an id below the counter as it was. */
  lemma {:induction false} MintsPreserveEarlier(reg: Registry, calls: seq<MintCall>, id: nat)
    requires Valid(reg) && id < reg.nextTokenId
    requires MintAll(reg, calls).Some?
    ensures OwnerOf(MintAll(reg, calls).value.0, id) == OwnerOf(reg, id)
    ensures TokenUri(MintAll(reg, calls).value.0, id) == TokenUri(reg, id)
    decreases |calls|
  {
    if |calls| > 0 {
      var m := SafeMint(reg, calls[0].to, calls[0].uri).value;
      MintsPreserveEarlier(m.registry, calls[1..], id);
    }
  }

  /** A fresh deployment hands out 0 first, to the recipient, with the URI. */
  lemma FirstMintIsZero(name: string, symbol: string, to: Address, uri: string)
    requires to != ZeroAddress
    ensures SafeMint(Deploy(name, symbol), to, uri).Success?
    ensures SafeMint(Deploy(name, symbol), to, uri).value.tokenId == 0
    ensures OwnerOf(SafeMint(Deploy(name, symbol), to, uri).value.registry, 0) == Success(to)
    ensures TokenUri(SafeMint(Deploy(name, symbol), to, uri).value.registry, 0) == Success(uri)
  {
  }

  /** A burnt id is never minted again: the next mint gets a different id,
      and the burnt token stays nonexistent. */
  lemma BurntIdStaysGone(reg: Registry, caller: Address, id: nat, to: Address, uri: string)
    requires Valid(reg) && OwnerOf(reg, id) == Success(caller) && to != ZeroAddress
    ensures var b := Burn(reg, caller, id).value.registry;
      && SafeMint(b, to, uri).value.tokenId != id
      && OwnerOf(SafeMint(b, to, uri).value.registry, id) == Failure(ERC721NonexistentToken(id))
  {
  }
}

=== FILE: record_controller.dfy ===
/**
  `GET /records/:id/certificate`: finds the caller's own `ip_records` row and
  its `files` row, checks the fields a certificate needs, and answers a PDF
  attachment. The PDF renderer is a black box; the model returns the data it
  would be given.
 */
module RecordController {
  import opened Wrappers
  import opened Text
  import opened Store

  /** Answers of the outside services: whether the database client exists,
      an error either query reports for a reason other than its row count
      (a lost connection, say), and whether rendering the PDF throws. */
  datatype CertificateOracles = CertificateOracles(
    dbAvailable: bool,
    recordQueryError: Option<QueryError>,
    fileQueryError: Option<QueryError>,
    pdfFails: bool)

  /** What the PDF renderer receives. */
  datatype CertificateData = CertificateData(
    ipRecordId: string,
    assetName: string,
    originalFilename: string,
    sha256Hash: string,
    timestamp: string,
    anchoringTxHash: string,
    nftTokenId: string,
    fileCid: string,
    metadataCid: string,
    contractAddress: string)

  datatype Header = Header(name: string, value: string)

  datatype CertificateResponse = CertificateResponse(
    reply: Reply, headers: seq<Header>, certificate: Option<CertificateData>)

  /** `.eq('id', recordId).eq('user_id', userId)`: the rows matching both
      filters, in table order. */
  function OwnedRecords(ips: seq<IpRecordRow>, recordId: string, userId: string): (r: seq<IpRecordRow>)
    ensures forall ip :: ip in r <==> ip in ips && ip.id == recordId && ip.userId == userId
    ensures r == [] <==> forall ip :: ip in ips ==> !(ip.id == recordId && ip.userId == userId)
    decreases |ips|
  {
    if |ips| == 0 then []
    else
      var rest := OwnedRecords(ips[1..], recordId, userId);
      assert forall ip :: ip in ips <==> ip == ips[0] || ip in ips[1..];
      if ips[0].id == recordId && ips[0].userId == userId then [ips[0]] + rest else rest
  }

  /** `.from('files').eq('id', fileId)`: the rows with that id. */
  function FilesWithId(files: seq<FileRow>, fileId: string): (r: seq<FileRow>)
    ensures forall f :: f in r <==> f in files && f.id == fileId
    ensures r == [] <==> forall f :: f in files ==> f.id != fileId
    decreases |files|
  {
    if |files| == 0 then []
    else
      var rest := FilesWithId(files[1..], fileId);
      assert forall f :: f in files <==> f == files[0] || f in files[1..];
      if files[0].id == fileId then [files[0]] + rest else rest
  }

  /** The filtered rows keep table order and appear once each: a row
      appended to `ip_records` adds itself at the end iff it matches both
      filters. */
  lemma {:induction false} OwnedRecordsAppend(ips: seq<IpRecordRow>, x: IpRecordRow, recordId: string, userId: string)
    ensures OwnedRecords(ips + [x], recordId, userId)
      == OwnedRecords(ips, recordId, userId) + (if x.id == recordId && x.userId == userId then [x] else [])
    decreases |ips|
  {
    if |ips| == 0 {
      assert ips + [x] == [x];
      assert OwnedRecords([x], recordId, userId)
        == (if x.id == recordId && x.userId == userId then [x] else []) + OwnedRecords([], recordId, userId);
    } else {
      assert (ips + [x])[0] == ips[0];
      assert (ips + [x])[1..] == ips[1..] + [x];
      OwnedRecordsAppend(ips[1..], x, recordId, userId);
    }
  }

  /** When exactly one row matches both filters, the query returns that row
      alone, so `.single()` succeeds with it. */
  lemma {:induction false} OneOwnedRecord(ips: seq<IpRecordRow>, k: nat, recordId: string, userId: string)
    requires k < |ips| && ips[k].id == recordId && ips[k].userId == userId
    requires forall j :: 0 <= j < |ips| && j != k ==> !(ips[j].id == recordId && ips[j].userId == userId)
    ensures OwnedRecords(ips, recordId, userId) == [ips[k]]
    decreases |ips|
  {
    if k == 0 {
      forall ip | ip in ips[1..]
        ensures !(ip.id == recordId && ip.userId == userId)
      {
        var j :| 0 <= j < |ips[1..]| && ips[1..][j] == ip;
        assert ips[j + 1] == ip;
      }
      assert OwnedRecords(ips[1..], recordId, userId) == [];
    } else {
      forall j | 0 <= j < |ips[1..]| && j != k - 1
        ensures !(ips[1..][j].id == recordId && ips[1..][j].userId == userId)
      {
        assert ips[1..][j] == ips[j + 1];
      }
      OneOwnedRecord(ips[1..], k - 1, recordId, userId);
      assert ips[1..][k - 1] == ips[k];
    }
  }

  /** The file rows with the id keep table order and appear once each: a
      row appended to `files` adds itself at the end iff it has the id. */
  lemma {:induction false} FilesWithIdAppend(files: seq<FileRow>, g: FileRow, fileId: string)
    ensures FilesWithId(files + [g], fileId) == FilesWithId(files, fileId) + (if g.id == fileId then [g] else [])
    decreases |files|
  {
    if |files| == 0 {
      assert files + [g] == [g];
      assert FilesWithId([g], fileId) == (if g.id == fileId then [g] else []) + FilesWithId([], fileId);
    } else {
      assert (files + [g])[0] == files[0];
      assert (files + [g])[1..] == files[1..] + [g];
      FilesWithIdAppend(files[1..], g, fileId);
    }
  }

  /** When exactly one row has the id (as when `id` is the primary key), the
      query returns that row alone. */
  lemma {:induction false} OneFileWithId(files: seq<FileRow>, k: nat, fileId: string)
    requires k < |files| && files[k].id == fileId
    requires forall j :: 0 <= j < |files| && j != k ==> files[j].id != fileId
    ensures FilesWithId(files, fileId) == [files[k]]
    decreases |files|
  {
    if k == 0 {
      forall f | f in files[1..]
        ensures f.id != fileId
      {
        var j :| 0 <= j < |files[1..]| && files[1..][j] == f;
        assert files[j + 1] == f;
      }
      assert FilesWithId(files[1..], fileId) == [];
    } else {
      forall j | 0 <= j < |files[1..]| && j != k - 1
        ensures files[1..][j].id != fileId
      {
        assert files[1..][j] == files[j + 1];
      }
      OneFileWithId(files[1..], k - 1, fileId);
      assert files[1..][k - 1] == files[k];
    }
  }

  /** A `.single()` query: the outside error if there is one, otherwise the
      row-count rule. */
  function Query<T>(outsideError: Option<QueryError>, rows: seq<T>): Result<T, QueryError> {
    if outsideError.Some? then Failure(outsideError.value) else Single(rows)
  }

  function CertificateFor(ip: IpRecordRow, f: FileRow): CertificateData {
    CertificateData(
      ip.id, ip.assetName, f.originalFilename, f.sha256Hash, ip.createdAt,
      ip.txHash, ip.tokenId, f.storageRef, ip.metadataCid, ip.contractAddress)
  }

  /** The fields without which no certificate is produced; the transaction
      hash, token id and contract address may be missing. */
  predicate HasEssentialFields(c: CertificateData) {
    && Truthy(c.ipRecordId) && Truthy(c.assetName) && Truthy(c.originalFilename)
    && Truthy(c.sha256Hash) && Truthy(c.timestamp) && Truthy(c.fileCid) && Truthy(c.metadataCid)
  }

  function DownloadHeaders(recordId: string): seq<Header> {
    [ Header("Content-Type", "application/pdf"),
      Header("Content-Disposition", "attachment; filename=\"certificate-" + recordId + ".pdf\"") ]
  }

  function Fail(status: int, message: string): CertificateResponse {
    CertificateResponse(Reply(status, message), [], None)
  }

  const RecordNotFoundMessage: string := "IP Record not found or access denied."
  const IncompleteRecordMessage: string := "IP Record not found, incomplete, or access denied."
  const RecordQueryErrorPrefix: string := "Database error: "
  const FileQueryErrorPrefix: string := "Database error fetching file details: "
  const IncompleteDataMessage: string := "Incomplete data found for certificate generation."
  const RenderFailedMessage: string := "Failed to generate certificate due to an internal error."

  /** The request passed its own checks and the database client exists. */
  predicate Admitted(recordId: string, userId: string, o: CertificateOracles) {
    Truthy(userId) && Truthy(recordId) && o.dbAvailable
  }

  /** The record names its file (`file_id` is present and not empty). */
  predicate HasFileRef(ip: IpRecordRow) {
    ip.fileId.Some? && Truthy(ip.fileId.value)
  }

  /** `getCertificate`. */
  function GetCertificate(recordId: string, userId: string, db: Db, o: CertificateOracles): (r: CertificateResponse)
    // the request checks come first, in this order
    ensures !Truthy(userId) ==> r.reply.status == 401
    ensures Truthy(userId) && !Truthy(recordId) ==> r.reply.status == 400
    ensures Truthy(userId) && Truthy(recordId) && !o.dbAvailable ==> r.reply.status == 500
    // no row that is both this id and the caller's: 404, whoever else owns it
    ensures (Truthy(userId) && Truthy(recordId) && o.dbAvailable && o.recordQueryError.None?
             && OwnedRecords(db.ipRecords, recordId, userId) == []) ==> r.reply == Reply(404, RecordNotFoundMessage)
    // a failing record query is a 404 only for the row-count code
    ensures Admitted(recordId, userId, o) && o.recordQueryError.Some? ==>
      r.reply == (if o.recordQueryError.value.code == NoSingleRowCode then Reply(404, RecordNotFoundMessage)
                  else Reply(500, RecordQueryErrorPrefix + o.recordQueryError.value.message))
    ensures (Admitted(recordId, userId, o) && o.recordQueryError.None?
             && |OwnedRecords(db.ipRecords, recordId, userId)| != 1) ==> r.reply == Reply(404, RecordNotFoundMessage)
    // the caller's record without a file reference
    ensures (Admitted(recordId, userId, o) && o.recordQueryError.None?
             && |OwnedRecords(db.ipRecords, recordId, userId)| == 1
             && !HasFileRef(OwnedRecords(db.ipRecords, recordId, userId)[0])) ==>
      r.reply == Reply(404, IncompleteRecordMessage)
    // a failing file query, or no single file row, is a server error
    ensures (Admitted(recordId, userId, o) && o.recordQueryError.None?
             && |OwnedRecords(db.ipRecords, recordId, userId)| == 1) ==>
      var ip := OwnedRecords(db.ipRecords, recordId, userId)[0];
      HasFileRef(ip) && o.fileQueryError.Some? ==>
        r.reply == Reply(500, FileQueryErrorPrefix + o.fileQueryError.value.message)
    ensures (Admitted(recordId, userId, o) && o.recordQueryError.None?
             && |OwnedRecords(db.ipRecords, recordId, userId)| == 1) ==>
      var ip := OwnedRecords(db.ipRecords, recordId, userId)[0];
      HasFileRef(ip) && o.fileQueryError.None? && |FilesWithId(db.files, ip.fileId.value)| != 1 ==>
        r.reply == Reply(500, FileQueryErrorPrefix + NoSingleRowMessage)
    // both rows found: the essential fields, then the renderer, decide
    ensures (Admitted(recordId, userId, o) && o.recordQueryError.None?
             && |OwnedRecords(db.ipRecords, recordId, userId)| == 1) ==>
      var ip := OwnedRecords(db.ipRecords, recordId, userId)[0];
      HasFileRef(ip) && o.fileQueryError.None? && |FilesWithId(db.files, ip.fileId.value)| == 1 ==>
        var data := CertificateFor(ip, FilesWithId(db.files, ip.fileId.value)[0]);
        && (!HasEssentialFields(data) ==> r.reply == Reply(500, IncompleteDataMessage))
        && (HasEssentialFields(data) && o.pdfFails ==> r.reply == Reply(500, RenderFailedMessage))
        && (HasEssentialFields(data) && !o.pdfFails ==> r.reply == Reply(200, "") && r.certificate == Some(data))
    ensures r.reply.status == 404 ==> r.reply.message in {RecordNotFoundMessage, IncompleteRecordMessage}
    ensures r.certificate.Some? <==> r.reply.status == 200
    ensures r.certificate.Some? ==>
      && OwnedRecords(db.ipRecords, recordId, userId) != []
      && var ip := OwnedRecords(db.ipRecords, recordId, userId)[0];
      && ip.id == recordId && ip.userId == userId && ip.fileId.Some?
      && FilesWithId(db.files, ip.fileId.value) != []
      && var f := FilesWithId(db.files, ip.fileId.value)[0];
      && f.id == ip.fileId.value
      && r.certificate.value == CertificateFor(ip, f)
      && HasEssentialFields(r.certificate.value)
      && r.headers == DownloadHeaders(recordId)
    ensures r.certificate.None? ==> r.headers == []
  {
    if !Truthy(userId) then Fail(401, "User not authenticated.")
    else if !Truthy(recordId) then Fail(400, "Record ID is required.")
    else if !o.dbAvailable then Fail(500, "Database service unavailable.")
    else
      match Query(o.recordQueryError, OwnedRecords(db.ipRecords, recordId, userId))
      case Failure(e) =>
        if e.code == NoSingleRowCode then Fail(404, RecordNotFoundMessage)
        else Fail(500, RecordQueryErrorPrefix + e.message)
      case Success(ip) =>
        if !HasFileRef(ip) then Fail(404, IncompleteRecordMessage)
        else
          match Query(o.fileQueryError, FilesWithId(db.files, ip.fileId.value))
          case Failure(e) => Fail(500, FileQueryErrorPrefix + e.message)
          case Success(f) =>
            var data := CertificateFor(ip, f);
            if !HasEssentialFields(data) then Fail(500, IncompleteDataMessage)
            else if o.pdfFails then Fail(500, RenderFailedMessage)
            else CertificateResponse(Reply(200, ""), DownloadHeaders(recordId), Some(data))
  }

  /** The rows of `ips` that belong to `userId`. */
  function OwnedBy(ips: seq<IpRecordRow>, userId: string): (r: seq<IpRecordRow>)
    ensures forall ip :: ip in r <==> ip in ips && ip.userId == userId
    decreases |ips|
  {
    if |ips| == 0 then []
    else
      var rest := OwnedBy(ips[1..], userId);
      assert forall ip :: ip in ips <==> ip == ips[0] || ip in ips[1..];
      if ips[0].userId == userId then [ips[0]] + rest else rest
  }

  lemma {:induction false} OwnedRecordsIgnoreOthers(ips: seq<IpRecordRow>, recordId: string, userId: string)
    ensures OwnedRecords(ips, recordId, userId) == OwnedRecords(OwnedBy(ips, userId), recordId, userId)
    decreases |ips|
  {
    if |ips| > 0 {
      OwnedRecordsIgnoreOthers(ips[1..], recordId, userId);
      var rest := OwnedBy(ips[1..], userId);
      if ips[0].userId == userId {
        assert OwnedBy(ips, userId) == [ips[0]] + rest;
        assert ([ips[0]] + rest)[1..] == rest;
      } else {
        assert OwnedBy(ips, userId) == rest;
      }
    }
  }

  /** Other users' rows are invisible: the answer is the same as if they
      were not in the table at all. */
  lemma OtherUsersRecordsAreInvisible(recordId: string, userId: string, db: Db, o: CertificateOracles)
    ensures GetCertificate(recordId, userId, db, o)
      == GetCertificate(recordId, userId, db.(ipRecords := OwnedBy(db.ipRecords, userId)), o)
  {
    OwnedRecordsIgnoreOthers(db.ipRecords, recordId, userId);
  }

  /** Asking for another user's record gets exactly the answer a
      non-existent id gets. */
  lemma ForeignRecordLooksMissing(recordId: string, userId: string, db: Db, o: CertificateOracles)
    requires Truthy(userId) && Truthy(recordId) && o.dbAvailable && o.recordQueryError.None?
    requires forall ip :: ip in db.ipRecords ==> ip.userId != userId
    ensures GetCertificate(recordId, userId, db, o) == GetCertificate(recordId, userId, db.(ipRecords := []), o)
    ensures GetCertificate(recordId, userId, db, o).reply == Reply(404, RecordNotFoundMessage)
  {
  }

  /** With the two rows found and the renderer working, a certificate is
      produced exactly when the essential fields are all present. */
  lemma EssentialFieldsDecide(recordId: string, userId: string, db: Db, o: CertificateOracles, ip: IpRecordRow, f: FileRow)
    requires Truthy(userId) && Truthy(recordId) && o.dbAvailable && o.recordQueryError.None?
    requires o.fileQueryError.None? && !o.pdfFails
    requires OwnedRecords(db.ipRecords, recordId, userId) == [ip]
    requires ip.fileId.Some? && Truthy(ip.fileId.value)
    requires FilesWithId(db.files, ip.fileId.value) == [f]
    ensures GetCertificate(recordId, userId, db, o).reply.status == 200 <==> HasEssentialFields(CertificateFor(ip, f))
    ensures !HasEssentialFields(CertificateFor(ip, f)) ==>
      GetCertificate(recordId, userId, db, o).reply == Reply(500, IncompleteDataMessage)
  {
  }

  /** Stated on the tables themselves: when the caller's record and its file
      are each the only row with their id, the certificate is produced
      exactly when the essential fields are present. */
  lemma {:induction false} UniqueRowsCertify(recordId: string, userId: string, db: Db, o: CertificateOracles, k: nat, m: nat)
    requires Truthy(userId) && Truthy(recordId) && o.dbAvailable && o.recordQueryError.None?
    requires o.fileQueryError.None? && !o.pdfFails
    requires k < |db.ipRecords| && db.ipRecords[k].id == recordId && db.ipRecords[k].userId == userId
    requires forall j :: 0 <= j < |db.ipRecords| && j != k ==> db.ipRecords[j].id != recordId
    requires HasFileRef(db.ipRecords[k])
    requires m < |db.files| && db.files[m].id == db.ipRecords[k].fileId.value
    requires forall j :: 0 <= j < |db.files| && j != m ==> db.files[j].id != db.files[m].id
    ensures GetCertificate(recordId, userId, db, o).reply.status == 200
      <==> HasEssentialFields(CertificateFor(db.ipRecords[k], db.files[m]))
  {
    OneOwnedRecord(db.ipRecords, k, recordId, userId);
    OneFileWithId(db.files, m, db.files[m].id);
    EssentialFieldsDecide(recordId, userId, db, o, db.ipRecords[k], db.files[m]);
  }

  /** A record whose file row is gone cannot be certified: the file query's
      row-count error surfaces as a 500. */
  lemma MissingFileRowIsServerError(recordId: string, userId: string, db: Db, o: CertificateOracles, ip: IpRecordRow)
    requires Truthy(userId) && Truthy(recordId) && o.dbAvailable && o.recordQueryError.None?
    requires o.fileQueryError.None?
    requires OwnedRecords(db.ipRecords, recordId, userId) == [ip]
    requires ip.fileId.Some? && Truthy(ip.fileId.value)
    requires forall f :: f in db.files ==> f.id != ip.fileId.value
    ensures GetCertificate(recordId, userId, db, o).reply
      == Reply(500, FileQueryErrorPrefix + NoSingleRowMessage)
  {
  }
}

=== FILE: route_middleware.dfy ===
/**
  The Next.js edge middleware of the web client: sends a signed-in visitor
  from the public pages to the dashboard and a signed-out visitor from the
  dashboard to the login page. Only the paths of its matcher reach it.
 */
module RouteMiddleware {
  /** What `auth.getSession()` gives the middleware. A lookup that returns
      an error has a null session, so it is `NoSession`; only a lookup that
      throws is `LookupThrew`. */
  datatype SessionLookup = SessionFound | NoSession | LookupThrew

  datatype RouteDecision = PassThrough | Redirect(location: string)

  const DashboardPath: string := "/dashboard"
  const LoginPath: string := "/login"

  predicate IsPublicEntry(pathname: string) {
    pathname == "/" || pathname == LoginPath
  }

  /** `middleware`: the decision for a request that reached it. */
  function Middleware(pathname: string, session: SessionLookup): (d: RouteDecision)
    ensures d == Redirect(DashboardPath) <==> session.SessionFound? && IsPublicEntry(pathname)
    ensures d == Redirect(LoginPath) <==> session.NoSession? && DashboardPath <= pathname
    ensures d.Redirect? ==> d.location in {DashboardPath, LoginPath}
    // a thrown session lookup never redirects
    ensures session.LookupThrew? ==> d == PassThrough
  {
    if session.LookupThrew? then PassThrough
    else if session.SessionFound? && IsPublicEntry(pathname) then Redirect(DashboardPath)
    else if session.NoSession? && DashboardPath <= pathname then Redirect(LoginPath)
    else PassThrough
  }

  /** `config.matcher`: `/`, `/login`, `/dashboard` and `/dashboard/(.*)`. */
  predicate MatcherApplies(pathname: string) {
    || pathname == "/" || pathname == LoginPath || pathname == DashboardPath
    || DashboardPath + "/" <= pathname
  }

  /** The decision a request gets: the middleware's on a matched path,
      otherwise the request is not seen at all. */
  function Routed(pathname: string, session: SessionLookup): (d: RouteDecision)
    ensures !MatcherApplies(pathname) ==> d == PassThrough
    ensures MatcherApplies(pathname) ==> d == Middleware(pathname, session)
  {
    if MatcherApplies(pathname) then Middleware(pathname, session) else PassThrough
  }

  /** Following a redirect with the same session is not redirected again. */
  lemma NoRedirectLoop(pathname: string, session: SessionLookup)
    requires Routed(pathname, session).Redirect?
    ensures Routed(Routed(pathname, session).location, session) == PassThrough
  {
    assert !(DashboardPath <= LoginPath) by { assert LoginPath[1] != DashboardPath[1]; }
  }

  /** Every matched dashboard page that is passed through was requested
      with a session, or while the session lookup failed. */
  lemma DashboardNeedsSession(pathname: string, session: SessionLookup)
    requires MatcherApplies(pathname) && DashboardPath <= pathname
    ensures Routed(pathname, session) == PassThrough <==> !session.NoSession?
  {
    assert !IsPublicEntry(pathname) by {
      assert |pathname| >= |DashboardPath|;
    }
  }

  /** A path that only begins with the dashboard's name, such as
      `/dashboardX`, would be redirected by the middleware's own test but
      is outside the matcher, so it is never redirected. */
  lemma LookalikePathsAreNotGuarded(suffix: string)
    requires |suffix| > 0 && suffix[0] != '/'
    ensures Middleware(DashboardPath + suffix, NoSession) == Redirect(LoginPath)
    ensures Routed(DashboardPath + suffix, NoSession) == PassThrough
  {
    var p := DashboardPath + suffix;
    assert p[..|DashboardPath|] == DashboardPath;
    assert p[|DashboardPath|] == suffix[0];
    assert !(DashboardPath + "/" <= p) by {
      assert (DashboardPath + "/")[|DashboardPath|] == '/';
    }
  }
}

=== FILE: store.dfy ===
/**
  The database tables the handlers read and write (`files`, `ip_records`,
  `profiles`), the content digest, and the reply shape every handler shares.
  The database itself is abstract: a table is a sequence of rows in the order
  the database returns them.
 */
module Store {
  import opened Wrappers
  import opened Text

  type Byte = b: int | 0 <= b < 256
  type Bytes = seq<Byte>

  /** 64 lower-case hexadecimal characters: the text form of a SHA-256 digest
      as `digest('hex')` prints it. */
  predicate IsSha256Hex(s: string) {
    |s| == 64 && forall k :: 0 <= k < |s| ==> IsLowerHexDigit(s[k])
  }

  /** The all-zero digest text, a witness that digests exist. */
  function ZeroDigest(): (s: string)
    ensures IsSha256Hex(s)
  {
    seq(64, _ => '0')
  }

  type Digest = s: string | IsSha256Hex(s) witness ZeroDigest()

  /** The SHA-256 primitive, left uninterpreted: every handler that hashes
      receives it as a parameter. Being a function, it is deterministic. */
  type Sha256 = Bytes -> Digest

  /** A row of `files`. */
  datatype FileRow = FileRow(
    id: string,
    userId: string,
    originalFilename: string,
    mimeType: string,
    sizeBytes: int,
    sha256Hash: string,
    storageProvider: string,
    storageRef: string)

  /** A row of `ip_records`. `fileId` is the nullable foreign key to `files`;
      the other nullable text columns hold "" for NULL. */
  datatype IpRecordRow = IpRecordRow(
    id: string,
    userId: string,
    fileId: Option<string>,
    assetName: string,
    assetDescription: string,
    txHash: string,
    contractAddress: string,
    tokenId: string,
    metadataCid: string,
    status: string,
    createdAt: string)

  /** The usage counters of a row of `profiles`. */
  datatype Profile = Profile(recordCount: int, storageUsedBytes: int)

  datatype Db = Db(files: seq<FileRow>, ipRecords: seq<IpRecordRow>, profiles: map<string, Profile>)

  /** What an `insert(...).select('id').single()` call reports: the row was
      written and this id came back (possibly none, written ""), or the
      database refused the row. */
  datatype InsertOutcome = Inserted(id: string) | InsertFailed(message: string)

  /** A PostgREST error: its code and message. */
  datatype QueryError = QueryError(code: string, message: string)

  /** The code and message PostgREST reports when `.single()` finds zero
      rows or more than one. */
  const NoSingleRowCode: string := "PGRST116"
  const NoSingleRowMessage: string := "JSON object requested, multiple (or no) rows returned"

  /** `.single()` over the rows a query selected: the row when there is
      exactly one, otherwise the PGRST116 error (never "no data, no error"). */
  function Single<T>(rows: seq<T>): (r: Result<T, QueryError>)
    ensures r.Success? <==> |rows| == 1
    ensures r.Success? ==> r.value == rows[0]
    ensures r.Failure? ==> r.error.code == NoSingleRowCode
  {
    if |rows| == 1 then Success(rows[0]) else Failure(QueryError(NoSingleRowCode, NoSingleRowMessage))
  }

  /** An HTTP status and the `message` field of the JSON body. */
  datatype Reply = Reply(status: int, message: string)

  /** The message axios rejects with when a reply's status is outside 2xx. */
  function AxiosStatusMessage(status: int): (m: string)
    ensures Truthy(m)
    ensures "Request failed" <= m
  {
    "Request failed with status code " + IntText(status)
  }

  /** The table only grows: every earlier row is still there, in place. */
  predicate Extends<T(==)>(before: seq<T>, after: seq<T>) {
    before <= after
  }
}

=== FILE: text.dfy ===
/**
  The JavaScript string operations the handlers and components rely on
  (`startsWith`, `indexOf`, `replace`, `split`, `trim`, `substring`,
  `Number.prototype.toString(radix)`), each with the semantics of the
  ECMAScript library and no more.
 */
module Text {
  import opened Wrappers

  /** JavaScript truthiness of a string-valued field. The model writes a
      field that is `undefined` or `null` as "", which is falsy exactly like
      the empty string. */
  predicate Truthy(s: string) {
    |s| > 0
  }

  // ---------------------------------------------------------------------
  // Searching and replacing

  predicate OccursAt(s: string, pat: string, i: nat) {
    i + |pat| <= |s| && s[i..i + |pat|] == pat
  }

  /** `s.indexOf(pat, from)`: the first position at or after `from` where
      `pat` occurs. */
  function IndexOfFrom(s: string, pat: string, from: nat): (r: Option<nat>)
    ensures r.Some? ==> from <= r.value && OccursAt(s, pat, r.value)
    ensures r.Some? ==> forall j :: from <= j < r.value ==> !OccursAt(s, pat, j)
    ensures r.None? ==> forall j: nat :: from <= j ==> !OccursAt(s, pat, j)
    decreases |s| - from
  {
    if from + |pat| > |s| then None
    else if s[from..from + |pat|] == pat then Some(from)
    else IndexOfFrom(s, pat, from + 1)
  }

  /** `s.replace(pat, rep)` with a string pattern: only the FIRST occurrence
      is replaced, wherever it is. */
  function ReplaceFirst(s: string, pat: string, rep: string): (r: string)
    ensures (forall j: nat :: !OccursAt(s, pat, j)) ==> r == s
    ensures OccursAt(s, pat, 0) ==> r == rep + s[|pat|..]
  {
    match IndexOfFrom(s, pat, 0)
    case None => s
    case Some(i) => s[..i] + rep + s[i + |pat|..]
  }

  /** Removing a prefix with `replace(prefix, "")` undoes prepending it,
      whatever the rest of the string contains. */
  lemma ReplacePrefixRoundTrip(prefix: string, rest: string)
    ensures ReplaceFirst(prefix + rest, prefix, "") == rest
  {
    assert (prefix + rest)[0..|prefix|] == prefix;
    assert OccursAt(prefix + rest, prefix, 0);
    assert (prefix + rest)[|prefix|..] == rest;
  }

  // ---------------------------------------------------------------------
  // Splitting on one character

  /** The first position of `c` in `s`. */
  function IndexOfChar(s: string, c: char): (i: nat)
    requires c in s
    ensures i < |s| && s[i] == c
    ensures c !in s[..i]
  {
    if s[0] == c then 0
    else
      assert c in s[1..] by {
        var k :| 0 <= k < |s| && s[k] == c;
        assert s[1..][k - 1] == c;
      }
      var j := IndexOfChar(s[1..], c);
      assert s[..j + 1] == [s[0]] + s[1..][..j];
      j + 1
  }

  /** `parts.join(sep)`. */
  function Join(parts: seq<string>, sep: char): string
    decreases |parts|
  {
    if |parts| == 0 then ""
    else if |parts| == 1 then parts[0]
    else parts[0] + [sep] + Join(parts[1..], sep)
  }

  /** `s.split(sep)` for a one-character separator: the maximal pieces
      between separators, empty pieces included. */
  function Split(s: string, sep: char): (parts: seq<string>)
    ensures |parts| >= 1
    ensures forall k :: 0 <= k < |parts| ==> sep !in parts[k]
    ensures Join(parts, sep) == s
    decreases |s|
  {
    if sep !in s then [s]
    else
      var i := IndexOfChar(s, sep);
      var rest := Split(s[i + 1..], sep);
      var parts := [s[..i]] + rest;
      assert parts[1..] == rest;
      assert s == s[..i] + [sep] + s[i + 1..];
      parts
  }

  /** Splitting undoes joining, as long as no piece holds the separator. */
  lemma {:induction false} SplitJoin(parts: seq<string>, sep: char)
    requires |parts| >= 1
    requires forall k :: 0 <= k < |parts| ==> sep !in parts[k]
    ensures Split(Join(parts, sep), sep) == parts
    decreases |parts|
  {
    if |parts| == 1 {
      assert Join(parts, sep) == parts[0];
    } else {
      var tail := Join(parts[1..], sep);
      var s := parts[0] + [sep] + tail;
      assert Join(parts, sep) == s;
      assert s[|parts[0]|] == sep;
      assert s[..|parts[0]|] == parts[0];
      assert sep in s;
      var i := IndexOfChar(s, sep);
      assert i == |parts[0]|;
      assert s[i + 1..] == tail;
      SplitJoin(parts[1..], sep);
      assert Split(s, sep) == [parts[0]] + parts[1..];
    }
  }

  // ---------------------------------------------------------------------
  // Trimming

  /** ECMAScript WhiteSpace and LineTerminator code points, the set that
      `String.prototype.trim` strips. */
  predicate IsJsWhitespace(c: char) {
    || c == '\t' || c == '\U{000B}' || c == '\U{000C}' || c == ' '
    || c == '\U{00A0}' || c == '\U{FEFF}' || c == '\U{1680}'
    || ('\U{2000}' <= c <= '\U{200A}') || c == '\U{202F}' || c == '\U{205F}' || c == '\U{3000}'
    || c == '\n' || c == '\r' || c == '\U{2028}' || c == '\U{2029}'
  }

  function TrimStart(s: string): (r: string)
    ensures |r| <= |s| && r == s[|s| - |r|..]
    ensures |r| > 0 ==> !IsJsWhitespace(r[0])
    ensures forall k :: 0 <= k < |s| - |r| ==> IsJsWhitespace(s[k])
  {
    if |s| > 0 && IsJsWhitespace(s[0]) then
      var r := TrimStart(s[1..]);
      assert forall k :: 1 <= k < |s| - |r| ==> s[k] == s[1..][k - 1];
      r
    else s
  }

  function TrimEnd(s: string): (r: string)
    ensures |r| <= |s| && r == s[..|r|]
    ensures |r| > 0 ==> !IsJsWhitespace(r[|r| - 1])
    ensures forall k :: |r| <= k < |s| ==> IsJsWhitespace(s[k])
  {
    if |s| > 0 && IsJsWhitespace(s[|s| - 1]) then
      var r := TrimEnd(s[..|s| - 1]);
      assert forall k :: |r| <= k < |s| - 1 ==> s[k] == s[..|s| - 1][k];
      r
    else s
  }

  /** `s.trim()`: leading and trailing whitespace removed. */
  function Trim(s: string): (r: string)
    ensures |r| <= |s|
    ensures |r| > 0 ==> !IsJsWhitespace(r[0]) && !IsJsWhitespace(r[|r| - 1])
  {
    var t := TrimStart(s);
    var r := TrimEnd(t);
    assert |r| > 0 ==> r[0] == t[0];
    r
  }

  /** Trimming leaves nothing exactly when every character is whitespace. */
  lemma TrimEmptyIffBlank(s: string)
    ensures Trim(s) == "" <==> forall k :: 0 <= k < |s| ==> IsJsWhitespace(s[k])
  {
    var t := TrimStart(s);
    var r := TrimEnd(t);
    var a := |s| - |t|;
    if r == "" {
      assert t == "";
    } else {
      assert r[0] == t[0] == s[a];
    }
  }

  /** Trimming twice is trimming once. */
  lemma TrimIdempotent(s: string)
    ensures Trim(Trim(s)) == Trim(s)
  {
    var t := Trim(s);
    if |t| > 0 {
      assert TrimStart(t) == t;
      assert TrimEnd(t) == t;
    }
  }

  // ---------------------------------------------------------------------
  // Substrings

  function Clamp(i: int, len: nat): (r: nat)
    ensures r <= len
    ensures 0 <= i <= len ==> r == i
  {
    if i < 0 then 0 else if i > len then len else i
  }

  /** `s.substring(start, end)`: both indices clamped into `[0, |s|]` and
      swapped when `start > end`. */
  function Substring(s: string, start: int, end: int): (r: string)
    ensures 0 <= start <= end <= |s| ==> r == s[start..end]
    ensures |r| <= |s|
  {
    var a := Clamp(start, |s|);
    var b := Clamp(end, |s|);
    if a <= b then s[a..b] else s[b..a]
  }

  // ---------------------------------------------------------------------
  // Case-insensitive ASCII matching

  /** The canonical form a JavaScript `/i` regular expression compares: ASCII
      letters fold to lower case, nothing else changes. */
  function AsciiLower(c: char): char {
    if 'A' <= c <= 'Z' then (c as int - 'A' as int + 'a' as int) as char else c
  }

  predicate EqualsIgnoreCase(a: string, b: string) {
    |a| == |b| && forall k :: 0 <= k < |a| ==> AsciiLower(a[k]) == AsciiLower(b[k])
  }

  // ---------------------------------------------------------------------
  // Radix encoding of non-negative integers

  predicate IsLowerHexDigit(c: char) {
    ('0' <= c <= '9') || ('a' <= c <= 'f')
  }

  /** A hexadecimal digit in either case, the class `[a-f0-9]` under `/i`. */
  predicate IsHexDigit(c: char) {
    ('0' <= c <= '9') || ('a' <= c <= 'f') || ('A' <= c <= 'F')
  }

  /** The value of a lower-case digit character. */
  function DigitValue(c: char): (d: nat)
    requires IsLowerHexDigit(c)
    ensures d < 16
  {
    if '0' <= c <= '9' then c as int - '0' as int else c as int - 'a' as int + 10
  }

  /** The lower-case digit for `d`; `DigitValue` reads it back. */
  function DigitChar(d: nat): (c: char)
    requires d < 16
    ensures IsLowerHexDigit(c) && DigitValue(c) == d
  {
    if d < 10 then ('0' as int + d) as char else ('a' as int + d - 10) as char
  }

  /** Every character is a digit of the given radix. */
  predicate IsNumeral(s: string, radix: nat) {
    forall k :: 0 <= k < |s| ==> IsLowerHexDigit(s[k]) && DigitValue(s[k]) < radix
  }

  lemma DivModFacts(n: nat, radix: nat)
    requires 2 <= radix <= n
    ensures n / radix < n && n % radix < radix
    ensures n == (n / radix) * radix + n % radix
  {
  }

  /** `n.toString(radix)` for a non-negative integer: lower-case digits, no
      leading zero unless the number is zero. */
  function RadixString(n: nat, radix: nat): (r: string)
    requires 2 <= radix <= 16
    ensures |r| >= 1 && IsNumeral(r, radix)
    ensures |r| > 1 ==> r[0] != '0'
    decreases n
  {
    if n < radix then [DigitChar(n)]
    else
      var q, d := n / radix, n % radix;
      assert q < n && d < radix by { DivModFacts(n, radix); }
      var prefix := RadixString(q, radix);
      var r := prefix + [DigitChar(d)];
      assert r[0] == prefix[0];
      assert IsNumeral(r, radix) by {
        assert forall k :: 0 <= k < |prefix| ==> r[k] == prefix[k];
      }
      r
  }

  /** `String(n)` for an integer: decimal, with a minus sign when negative. */
  function IntText(n: int): (r: string)
    ensures |r| >= 1 && (r[0] == '-' <==> n < 0)
  {
    if n >= 0 then RadixString(n, 10) else "-" + RadixString(-n, 10)
  }

  /** The value a numeral denotes, most significant digit first. */
  function ParseRadix(s: string, radix: nat): nat
    requires 2 <= radix && IsNumeral(s, radix)
    decreases |s|
  {
    if |s| == 0 then 0
    else
      var init := s[..|s| - 1];
      assert IsNumeral(init, radix) by {
        assert forall k :: 0 <= k < |init| ==> init[k] == s[k];
      }
      ParseRadix(init, radix) * radix + DigitValue(s[|s| - 1])
  }

  /** Reading back a radix string gives the number that was printed. */
  lemma {:induction false} RadixRoundTrip(n: nat, radix: nat)
    requires 2 <= radix <= 16
    ensures ParseRadix(RadixString(n, radix), radix) == n
    decreases n
  {
    var r := RadixString(n, radix);
    if n < radix {
      assert r[..0] == [];
    } else {
      var q, d := n / radix, n % radix;
      DivModFacts(n, radix);
      var prefix := RadixString(q, radix);
      assert r == prefix + [DigitChar(d)];
      assert r[..|r| - 1] == prefix;
      assert DigitValue(r[|r| - 1]) == d;
      RadixRoundTrip(q, radix);
      assert ParseRadix(r, radix) == ParseRadix(prefix, radix) * radix + d;
    }
  }
}

=== FILE: upload_client.dfy ===
/**
  The upload-and-mint component of the web client: its status machine, the
  usage-limit predicates mirrored from the server, and the submit workflow
  (prepare on the server, mint from the user's wallet, confirm on the
  server). HTTP calls, the session, the contract and the wallet are oracles.
 */
module UploadClient {
  import opened Wrappers
  import opened Text
  import opened Store
  import FileController

  datatype Status =
    | Idle | CheckingLimits | UploadingFile | PreparingMetadata | WaitingForSignature
    | Minting | ConfirmingBackend | Success | Error

  /** The statuses of a submission that goes through, in order. */
  const HappyPath: seq<Status> :=
    [UploadingFile, PreparingMetadata, WaitingForSignature, Minting, ConfirmingBackend, Status.Success]

  /** The selected `File`: its name, MIME type and size in bytes. */
  datatype SelectedFile = SelectedFile(name: string, mimeType: string, size: nat)

  /** The component's state. Strings hold "" for null. */
  datatype UploadState = UploadState(
    status: Status,
    errorMessage: string,
    profile: Option<Profile>,
    loadingProfile: bool,
    userId: string,
    file: Option<SelectedFile>,
    signerPresent: bool,
    address: string,
    mintTxHash: string,
    result: Option<FileController.ConfirmReceipt>)

  const FreeTierRecordLimit: int := 5
  const FreeTierStorageLimitBytes: int := 100 * 1024 * 1024

  // ---------------------------------------------------------------------
  // Limit predicates

  predicate RecordsLimitReached(st: UploadState) {
    st.profile.Some? && st.profile.value.recordCount >= FreeTierRecordLimit
  }

  predicate StorageLimitReached(st: UploadState) {
    st.profile.Some? && st.file.Some?
    && st.profile.value.storageUsedBytes + st.file.value.size > FreeTierStorageLimitBytes
  }

  predicate IsOverLimit(st: UploadState) {
    RecordsLimitReached(st) || StorageLimitReached(st)
  }

  predicate IsButtonDisabled(st: UploadState) {
    st.file.None? || !st.signerPresent || !Truthy(st.address) || st.status !in {Idle, Status.Success, Error}
  }

  /** With no profile loaded the client never reports a limit; the server
      still enforces them. */
  lemma NoProfileNoLimit(st: UploadState)
    requires st.profile.None?
    ensures !IsOverLimit(st)
  {
  }

  // ---------------------------------------------------------------------
  // Loading the profile and choosing a file

  datatype LoadOutcome = LoadOutcome(trace: seq<Status>, state: UploadState)

  /** The profile load on mount. `user` is the signed-in user's id, if any;
      the profile row is read with `.single()`, so a missing row is an
      error like a failed read. */
  function LoadProfile(st: UploadState, user: Option<string>, profiles: map<string, Profile>, readFails: bool): (r: LoadOutcome)
    // the load always ends idle and no longer loading
    ensures |r.trace| >= 2 && r.trace[0] == CheckingLimits && r.trace[|r.trace| - 1] == Idle
    ensures r.state.status == Idle && !r.state.loadingProfile
    ensures r.trace == [CheckingLimits, Idle] || r.trace == [CheckingLimits, Error, Idle]
    ensures user.None? ==> r.state.profile.None? && r.state.userId == ""
    ensures user.Some? && !readFails && user.value in profiles ==>
      r.state.profile == Some(profiles[user.value]) && r.trace == [CheckingLimits, Idle]
    // a failed read leaves the message while the status is back to idle
    ensures user.Some? && (readFails || user.value !in profiles) ==>
      r.state.errorMessage == "Could not load your usage data." && r.state.profile == st.profile
      && r.trace == [CheckingLimits, Error, Idle]
  {
    match user
    case None => LoadOutcome([CheckingLimits, Idle], st.(profile := None, userId := "", loadingProfile := false, status := Idle))
    case Some(id) =>
      var signedIn := st.(userId := id, loadingProfile := false, status := Idle);
      if readFails || id !in profiles then
        LoadOutcome([CheckingLimits, Error, Idle], signedIn.(errorMessage := "Could not load your usage data."))
      else
        LoadOutcome([CheckingLimits, Idle], signedIn.(profile := Some(profiles[id])))
  }

  /** `handleFileChange` with a file chosen: a fresh start. */
  function SelectFile(st: UploadState, f: SelectedFile): (r: UploadState)
    ensures r.file == Some(f) && r.status == Idle && r.errorMessage == "" && r.result.None?
    ensures r.profile == st.profile && r.signerPresent == st.signerPresent && r.address == st.address
  {
    st.(file := Some(f), status := Idle, errorMessage := "", result := None)
  }

  // ---------------------------------------------------------------------
  // Reading the mint receipt

  const ZeroAddress: string := "0x0000000000000000000000000000000000000000"

  /** A log of the mint receipt: a `Transfer` the contract's interface
      parses, or anything else. */
  datatype ReceiptLog = TransferLog(from: string, to: string, tokenId: nat) | OtherLog

  predicate IsMintLog(l: ReceiptLog) {
    l.TransferLog? && l.from == ZeroAddress
  }

  /** The token id of the first `Transfer` from the zero address. */
  function FindMintTokenId(logs: seq<ReceiptLog>): (r: Option<nat>)
    ensures r.None? <==> forall k :: 0 <= k < |logs| ==> !IsMintLog(logs[k])
    ensures r.Some? ==>
      exists k :: (0 <= k < |logs| && IsMintLog(logs[k]) && logs[k].tokenId == r.value
                   && forall j :: 0 <= j < k ==> !IsMintLog(logs[j]))
    decreases |logs|
  {
    if |logs| == 0 then None
    else if IsMintLog(logs[0]) then Some(logs[0].tokenId)
    else
      var r := FindMintTokenId(logs[1..]);
      assert forall k :: 1 <= k < |logs| ==> logs[k] == logs[1..][k - 1];
      r
  }

  // ---------------------------------------------------------------------
  // Submitting

  /** A thrown error: an axios error (with or without response data) or
      any other `Error`, each with its `message`. */
  datatype Thrown = AxiosError(message: string, hasResponseData: bool) | PlainError(message: string)

  /** The message shown for a caught error. For an axios error with a
      response body the code calls `.text()` on the parsed JSON body, which
      is not a Blob; the resulting TypeError sends it to the fallback, so the
      server's own message is never shown. */
  function DisplayError(e: Thrown): (m: string)
    ensures e.PlainError? ==> m == e.message
    ensures e.AxiosError? ==> m == (if Truthy(e.message) || !e.hasResponseData then e.message else UnknownErrorMessage)
  {
    match e
    case PlainError(message) => message
    case AxiosError(message, hasData) =>
      if hasData then (if Truthy(message) then message else UnknownErrorMessage) else message
  }

  const UnknownErrorMessage: string := "An unknown error occurred during the minting process."

  /** `a || b`. */
  function Or(a: string, b: string): string {
    if Truthy(a) then a else b
  }

  /** What the server answered on `files/upload`, when axios did not throw. */
  datatype PrepareReply =
    | PrepareAnswered(status: nat, body: FileController.PreparedMint, message: string)
    | PrepareThrew(error: Thrown)

  datatype SendOutcome = Sent(txHash: string) | SendThrew(error: Thrown)

  datatype ReceiptOutcome = Receipt(logs: seq<ReceiptLog>) | NoReceipt | WaitThrew(error: Thrown)

  /** What the server answered on `files/confirm-mint`, when axios did not
      throw. */
  datatype ConfirmReply =
    | ConfirmAnswered(status: nat, body: Option<FileController.ConfirmReceipt>, message: string)
    | ConfirmThrew(error: Thrown)

  /** Outcomes of the outside calls of one submission. `refreshedProfile`
      is the re-read profile after success, None when that read fails. */
  datatype SubmitOracles = SubmitOracles(
    sessionErrorMessage: string,
    sessionFails: bool,
    prepare: PrepareReply,
    contractConfigured: bool,
    send: SendOutcome,
    receipt: ReceiptOutcome,
    confirm: ConfirmReply,
    refreshedProfile: Option<Profile>)

  /** The requests the component sends out, in order. */
  datatype ClientRequest =
    | PostUpload(fileName: string)
    | SafeMint(to: string, tokenUri: string)
    | PostConfirm(payload: FileController.MintDetails)

  /** The part of a submission after the guards: how many statuses of the
      happy path were set, the error (if any), the requests sent, the
      transaction hash and the confirmation. */
  datatype Progress = Progress(
    steps: nat, error: Option<Thrown>, requests: seq<ClientRequest>,
    mintTxHash: string, result: Option<FileController.ConfirmReceipt>)

  const ContractMissingMessage: string := "Contract address configuration is missing. Cannot mint."

  /** The payload `confirm-mint` receives. */
  function ConfirmationPayload(f: SelectedFile, prepared: FileController.PreparedMint, txHash: string, tokenId: nat): FileController.MintDetails {
    FileController.MintDetails(
      txHash, RadixString(tokenId, 10), prepared.fileHash, prepared.fileCid,
      ReplaceFirst(prepared.tokenUri, FileController.IpfsScheme, ""),
      prepared.originalFilename, f.mimeType, f.size)
  }

  const NoSessionMessage: string := "User not authenticated."
  const PrepareFailedMessage: string := "Failed to prepare metadata."
  const NoReceiptMessage: string := "Mint transaction receipt not received."
  const NoTransferMessage: string := "Could not find valid Transfer event in mint receipt."
  const ConfirmFailedMessage: string := "Failed to confirm mint with backend."

  /** The server prepared the mint: a session, then a 200 with a token URI. */
  predicate PrepareSucceeds(o: SubmitOracles) {
    !o.sessionFails && o.prepare.PrepareAnswered? && o.prepare.status == 200 && Truthy(o.prepare.body.tokenUri)
  }

  /** The wallet sent the mint transaction. */
  predicate MintSent(o: SubmitOracles) {
    PrepareSucceeds(o) && o.contractConfigured && o.send.Sent?
  }

  /** The receipt came and carries a mint log. */
  predicate MintLogged(o: SubmitOracles) {
    MintSent(o) && o.receipt.Receipt? && FindMintTokenId(o.receipt.logs).Some?
  }

  /** The server confirmed the mint with a 200 and a body. */
  predicate ConfirmSucceeds(o: SubmitOracles) {
    MintLogged(o) && o.confirm.ConfirmAnswered? && o.confirm.status == 200 && o.confirm.body.Some?
  }

  /** Steps 1 to 3 of `handleSubmit`, from `uploadingFile` on. */
  function Run(f: SelectedFile, address: string, o: SubmitOracles): (p: Progress)
    ensures 2 <= p.steps <= 6
    ensures p.error.None? <==> p.steps == 6
    ensures p.result.Some? <==> p.steps == 6
    ensures |p.requests| <= 3
    ensures |p.requests| >= 1 ==> p.requests[0] == PostUpload(f.name) && p.steps >= 2
    ensures |p.requests| >= 2 ==>
      && o.prepare.PrepareAnswered? && o.prepare.status == 200 && Truthy(o.prepare.body.tokenUri)
      && p.requests[1] == SafeMint(address, o.prepare.body.tokenUri) && p.steps >= 3
    ensures |p.requests| >= 3 ==>
      && o.send.Sent? && o.receipt.Receipt? && FindMintTokenId(o.receipt.logs).Some?
      && p.requests[2] == PostConfirm(ConfirmationPayload(f, o.prepare.body, o.send.txHash, FindMintTokenId(o.receipt.logs).value))
      && p.steps >= 5
    ensures p.steps == 6 ==> |p.requests| == 3 && o.confirm.ConfirmAnswered? && p.result == o.confirm.body
    ensures p.steps >= 4 ==> o.send.Sent? && p.mintTxHash == o.send.txHash
    ensures p.steps < 4 ==> p.mintTxHash == ""
    // the run reaches `success` exactly when every outside call went through
    ensures p.steps == 6 <==> ConfirmSucceeds(o)
    // otherwise it stops at the first failing call, with that call's error
    ensures o.sessionFails ==>
      p.steps == 2 && p.requests == [] && p.error == Some(PlainError(Or(o.sessionErrorMessage, NoSessionMessage)))
    ensures !o.sessionFails && o.prepare.PrepareThrew? ==>
      p.steps == 2 && p.requests == [PostUpload(f.name)] && p.error == Some(o.prepare.error)
    ensures !o.sessionFails && o.prepare.PrepareAnswered? && !PrepareSucceeds(o) ==>
      p.steps == 2 && p.requests == [PostUpload(f.name)]
      && p.error == Some(PlainError(Or(o.prepare.message, PrepareFailedMessage)))
    ensures PrepareSucceeds(o) && !o.contractConfigured ==>
      p.steps == 3 && |p.requests| == 1 && p.error == Some(PlainError(ContractMissingMessage))
    ensures PrepareSucceeds(o) && o.contractConfigured && o.send.SendThrew? ==>
      p.steps == 3 && |p.requests| == 2 && p.error == Some(o.send.error)
    ensures MintSent(o) && o.receipt.WaitThrew? ==>
      p.steps == 4 && |p.requests| == 2 && p.error == Some(o.receipt.error)
    ensures MintSent(o) && o.receipt.NoReceipt? ==>
      p.steps == 4 && |p.requests| == 2 && p.error == Some(PlainError(NoReceiptMessage))
    ensures MintSent(o) && o.receipt.Receipt? && FindMintTokenId(o.receipt.logs).None? ==>
      p.steps == 4 && |p.requests| == 2 && p.error == Some(PlainError(NoTransferMessage))
    ensures MintLogged(o) && o.confirm.ConfirmThrew? ==>
      p.steps == 5 && |p.requests| == 3 && p.error == Some(o.confirm.error)
    ensures MintLogged(o) && o.confirm.ConfirmAnswered? && !ConfirmSucceeds(o) ==>
      p.steps == 5 && |p.requests| == 3 && p.error == Some(PlainError(Or(o.confirm.message, ConfirmFailedMessage)))
  {
    if o.sessionFails then
      Progress(2, Some(PlainError(Or(o.sessionErrorMessage, NoSessionMessage))), [], "", None)
    else
      var upload := [PostUpload(f.name)];
      match o.prepare
      case PrepareThrew(e) => Progress(2, Some(e), upload, "", None)
      case PrepareAnswered(status, prepared, message) =>
        if status != 200 || !Truthy(prepared.tokenUri) then
          Progress(2, Some(PlainError(Or(message, PrepareFailedMessage))), upload, "", None)
        else if !o.contractConfigured then
          Progress(3, Some(PlainError(ContractMissingMessage)), upload, "", None)
        else
          var minted := upload + [SafeMint(address, prepared.tokenUri)];
          match o.send
          case SendThrew(e) => Progress(3, Some(e), minted, "", None)
          case Sent(txHash) =>
            match o.receipt
            case WaitThrew(e) => Progress(4, Some(e), minted, txHash, None)
            case NoReceipt => Progress(4, Some(PlainError(NoReceiptMessage)), minted, txHash, None)
            case Receipt(logs) =>
              match FindMintTokenId(logs)
              case None => Progress(4, Some(PlainError(NoTransferMessage)), minted, txHash, None)
              case Some(tokenId) =>
                var confirmed := minted + [PostConfirm(ConfirmationPayload(f, prepared, txHash, tokenId))];
                match o.confirm
                case ConfirmThrew(e) => Progress(5, Some(e), confirmed, txHash, None)
                case ConfirmAnswered(status, body, message) =>
                  if status != 200 || body.None? then
                    Progress(5, Some(PlainError(Or(message, ConfirmFailedMessage))), confirmed, txHash, None)
                  else Progress(6, None, confirmed, txHash, body)
  }

  datatype SubmitOutcome = SubmitOutcome(trace: seq<Status>, state: UploadState, requests: seq<ClientRequest>)

  const MissingInputMessage: string := "Please select a file and connect your wallet."
  const OverLimitMessage: string := "Usage limit reached. Please upgrade your plan."

  /** `handleSubmit`. */
  function Submit(st: UploadState, o: SubmitOracles): (r: SubmitOutcome)
    // the final status is the last one set
    ensures |r.trace| >= 1 && r.state.status == r.trace[|r.trace| - 1]
    // a submission either runs the happy path to its end, or stops with an
    // error after a prefix of it
    ensures r.trace == HappyPath || exists k :: 0 <= k <= 5 && r.trace == HappyPath[..k] + [Error]
    ensures r.state.status == Status.Success <==> r.trace == HappyPath
    ensures r.state.status == Status.Success ==> |r.requests| == 3 && r.state.result.Some? && r.state.errorMessage == ""
    // a submission the guards stop leaves an earlier confirmation in place
    ensures r.trace == [Error] ==> r.state.result == st.result
    ensures r.trace != [Error] && r.state.status == Error ==> r.state.result.None?
    // the guards send nothing
    ensures (st.file.None? || !st.signerPresent || !Truthy(st.address)) ==>
      r.trace == [Error] && r.state.errorMessage == MissingInputMessage && r.requests == []
    ensures (st.file.Some? && st.signerPresent && Truthy(st.address) && IsOverLimit(st)) ==>
      r.trace == [Error] && r.state.errorMessage == OverLimitMessage && r.requests == []
    ensures |r.requests| >= 2 ==> r.requests[1].SafeMint? && r.requests[1].to == st.address
    // past the guards, the requests, the transaction hash and the
    // confirmation are those of the run, and an error is displayed as thrown
    ensures (st.file.Some? && st.signerPresent && Truthy(st.address) && !IsOverLimit(st)) ==>
      var p := Run(st.file.value, st.address, o);
      && r.requests == p.requests && r.state.mintTxHash == p.mintTxHash && r.state.result == p.result
      && (p.error.Some? ==> r.state.errorMessage == DisplayError(p.error.value))
      // the statuses set are the run's steps, then `error` if it stopped
      && r.trace == (if p.error.None? then HappyPath else HappyPath[..p.steps] + [Error])
    // success shows the confirmation the server sent back
    ensures r.state.status == Status.Success ==> o.confirm.ConfirmAnswered? && r.state.result == o.confirm.body
  {
    assert [Error] == HappyPath[..0] + [Error];
    if st.file.None? || !st.signerPresent || !Truthy(st.address) then
      SubmitOutcome([Error], st.(status := Error, errorMessage := MissingInputMessage), [])
    else if IsOverLimit(st) then
      SubmitOutcome([Error], st.(status := Error, errorMessage := OverLimitMessage), [])
    else
      var p := Run(st.file.value, st.address, o);
      var started := st.(errorMessage := "", result := None, mintTxHash := p.mintTxHash);
      if p.error.None? then
        var refreshed := if Truthy(st.userId) && o.refreshedProfile.Some? then o.refreshedProfile else st.profile;
        assert HappyPath[..6] == HappyPath;
        SubmitOutcome(HappyPath, started.(status := Status.Success, result := p.result, profile := refreshed), p.requests)
      else
        var trace := HappyPath[..p.steps] + [Error];
        assert exists k :: 0 <= k <= 5 && trace == HappyPath[..k] + [Error];
        SubmitOutcome(trace, started.(status := Error, errorMessage := DisplayError(p.error.value)), p.requests)
  }

  /** A submission the button allows, within the limits, ends in `success`
      exactly when every outside call goes through; it then shows the
      server's confirmation after the three requests. */
  lemma SubmissionSucceedsIff(st: UploadState, o: SubmitOracles)
    requires st.file.Some? && st.signerPresent && Truthy(st.address) && !IsOverLimit(st)
    ensures Submit(st, o).state.status == Status.Success <==> ConfirmSucceeds(o)
    ensures ConfirmSucceeds(o) ==>
      && Submit(st, o).trace == HappyPath
      && Submit(st, o).state.result == o.confirm.body
      && Submit(st, o).requests == [
           PostUpload(st.file.value.name),
           SafeMint(st.address, o.prepare.body.tokenUri),
           PostConfirm(ConfirmationPayload(st.file.value, o.prepare.body, o.send.txHash, FindMintTokenId(o.receipt.logs).value))]
  {
  }

  /** An error the server reports in a JSON body is not what the user sees:
      the axios error's own message is shown instead. */
  lemma ServerMessageIsNotShown(st: UploadState, o: SubmitOracles, axiosMessage: string)
    requires st.file.Some? && st.signerPresent && Truthy(st.address) && !IsOverLimit(st)
    requires !o.sessionFails && o.prepare == PrepareThrew(AxiosError(axiosMessage, true)) && Truthy(axiosMessage)
    ensures Submit(st, o).state.errorMessage == axiosMessage
    ensures Submit(st, o).trace == [UploadingFile, PreparingMetadata, Error]
  {
    assert HappyPath[..2] == [UploadingFile, PreparingMetadata];
  }

  /** With the button enabled, a submission is refused only for the
      usage limit; otherwise it starts uploading. */
  lemma EnabledButtonStartsUpload(st: UploadState, o: SubmitOracles)
    requires !IsButtonDisabled(st)
    ensures IsOverLimit(st) ==> Submit(st, o).state.errorMessage == OverLimitMessage
    ensures !IsOverLimit(st) ==> Submit(st, o).trace[..2] == [UploadingFile, PreparingMetadata]
  {
    if !IsOverLimit(st) {
      var p := Run(st.file.value, st.address, o);
      assert HappyPath[..p.steps][..2] == [UploadingFile, PreparingMetadata];
    }
  }
}

=== FILE: verification_controller.dfy ===
/**
  The public `POST /verify` endpoint: takes an uploaded file or a hex digest,
  looks up every `files` row with that digest, and answers one entry per
  (file row, referencing `ip_records` row) pair.
 */
module VerificationController {
  import opened Wrappers
  import opened Text
  import opened Store

  /** `/^[a-f0-9]{64}$/i`: exactly 64 hexadecimal characters in either case. */
  predicate IsValidSha256(s: string) {
    |s| == 64 && forall k :: 0 <= k < |s| ==> IsHexDigit(s[k])
  }

  /** One leading lower-case `0x` is dropped; nothing else changes. */
  function StripHexPrefix(s: string): (r: string)
    ensures "0x" <= s ==> s == "0x" + r
    ensures !("0x" <= s) ==> r == s
  {
    if "0x" <= s then s[2..] else s
  }

  /** `req.file` (its buffer) and `req.body.hash` ("" when absent). */
  datatype VerifyRequest = VerifyRequest(file: Option<Bytes>, hash: string)

  /** One entry of the 200 body, field for field from the two rows. */
  datatype VerificationResult = VerificationResult(
    fileName: string,
    fileHash: string,
    fileCid: string,
    assetName: string,
    status: string,
    timestamp: string,
    anchoringTxHash: string,
    nftContractAddress: string,
    nftTokenId: string,
    metadataCid: string)

  /** Answers of the database: whether the client exists, the error the
      `files` query reports (if any), and whether the `ip_records` query for
      the i-th matching file errors. */
  datatype VerifyOracles = VerifyOracles(dbAvailable: bool, filesQueryError: Option<string>, ipQueryFails: seq<bool>)

  /** `lookupKey` is the digest the `files` query used, None when the
      handler answered before querying. */
  datatype VerifyResponse = VerifyResponse(reply: Reply, results: seq<VerificationResult>, lookupKey: Option<string>)

  const HashNotFoundMessage: string := "Hash not found in Veltis Protocol records."
  const NoTimestampMessage: string := "File hash found, but no associated timestamp record exists yet."

  function Entry(f: FileRow, ip: IpRecordRow): VerificationResult {
    VerificationResult(
      f.originalFilename, f.sha256Hash, f.storageRef, ip.assetName, ip.status, ip.createdAt,
      ip.txHash, ip.contractAddress, ip.tokenId, ip.metadataCid)
  }

  /** `.from('files').select('*').eq('sha256_hash', h)`: the rows whose
      digest is exactly `h`, in table order. */
  function FilesWithHash(files: seq<FileRow>, h: string): (r: seq<FileRow>)
    ensures forall k :: 0 <= k < |r| ==> r[k] in files && r[k].sha256Hash == h
    ensures forall f :: f in files && f.sha256Hash == h ==> f in r
    decreases |files|
  {
    if |files| == 0 then []
    else
      var rest := FilesWithHash(files[1..], h);
      assert forall f :: f in files[1..] ==> f in files;
      if files[0].sha256Hash == h then [files[0]] + rest else rest
  }

  /** The entries for one file row: one per `ip_records` row whose `file_id`
      references it, in table order. */
  function EntriesFor(f: FileRow, ips: seq<IpRecordRow>): (r: seq<VerificationResult>)
    ensures forall e :: e in r ==> exists j :: 0 <= j < |ips| && ips[j].fileId == Some(f.id) && e == Entry(f, ips[j])
    ensures forall j :: 0 <= j < |ips| && ips[j].fileId == Some(f.id) ==> Entry(f, ips[j]) in r
    ensures |r| <= |ips|
    ensures (forall j :: 0 <= j < |ips| ==> ips[j].fileId != Some(f.id)) ==> r == []
    decreases |ips|
  {
    if |ips| == 0 then []
    else
      var rest := EntriesFor(f, ips[1..]);
      assert forall j :: 1 <= j < |ips| ==> ips[j] == ips[1..][j - 1];
      if ips[0].fileId == Some(f.id) then [Entry(f, ips[0])] + rest else rest
  }

  predicate QueryFails(fails: seq<bool>, i: nat) {
    i < |fails| && fails[i]
  }

  /** The loop over the matching files: a file whose `ip_records` query
      errors contributes nothing; the others contribute their entries, file
      by file. */
  function CollectEntries(files: seq<FileRow>, ips: seq<IpRecordRow>, fails: seq<bool>): (r: seq<VerificationResult>)
    ensures forall e :: e in r ==>
      exists i, j :: 0 <= i < |files| && !QueryFails(fails, i) && 0 <= j < |ips|
        && ips[j].fileId == Some(files[i].id) && e == Entry(files[i], ips[j])
    ensures forall i, j ::
      (0 <= i < |files| && !QueryFails(fails, i) && 0 <= j < |ips| && ips[j].fileId == Some(files[i].id))
      ==> Entry(files[i], ips[j]) in r
    decreases |files|
  {
    if |files| == 0 then []
    else
      var here := if QueryFails(fails, 0) then [] else EntriesFor(files[0], ips);
      var tailFails := if |fails| > 0 then fails[1..] else [];
      var rest := CollectEntries(files[1..], ips, tailFails);
      assert forall i :: 1 <= i < |files| ==>
        (files[i] == files[1..][i - 1] && QueryFails(fails, i) == QueryFails(tailFails, i - 1));
      here + rest
  }

  // The three filters above keep table order and copy each row once: a row
  // appended to a table adds its own contribution at the end, and nothing
  // else.

  /** The matching file rows come in table order, each once. */
  lemma {:induction false} FilesWithHashAppend(files: seq<FileRow>, g: FileRow, h: string)
    ensures FilesWithHash(files + [g], h) == FilesWithHash(files, h) + (if g.sha256Hash == h then [g] else [])
    decreases |files|
  {
    if |files| == 0 {
      assert files + [g] == [g];
      assert FilesWithHash([g], h) == (if g.sha256Hash == h then [g] else []) + FilesWithHash([], h);
    } else {
      assert (files + [g])[0] == files[0];
      assert (files + [g])[1..] == files[1..] + [g];
      FilesWithHashAppend(files[1..], g, h);
    }
  }

  /** A file's entries follow the `ip_records` table order, one per
      referencing row. */
  lemma {:induction false} EntriesForAppend(f: FileRow, ips: seq<IpRecordRow>, ip: IpRecordRow)
    ensures EntriesFor(f, ips + [ip]) == EntriesFor(f, ips) + (if ip.fileId == Some(f.id) then [Entry(f, ip)] else [])
    decreases |ips|
  {
    if |ips| == 0 {
      assert ips + [ip] == [ip];
      assert EntriesFor(f, [ip]) == (if ip.fileId == Some(f.id) then [Entry(f, ip)] else []) + EntriesFor(f, []);
    } else {
      assert (ips + [ip])[0] == ips[0];
      assert (ips + [ip])[1..] == ips[1..] + [ip];
      EntriesForAppend(f, ips[1..], ip);
    }
  }

  /** The loop emits file by file in the order of the matching rows: one
      more file adds its own entries (none if its query failed) at the end. */
  lemma {:induction false} CollectEntriesAppend(files: seq<FileRow>, g: FileRow, ips: seq<IpRecordRow>, fails: seq<bool>)
    ensures CollectEntries(files + [g], ips, fails)
      == CollectEntries(files, ips, fails) + (if QueryFails(fails, |files|) then [] else EntriesFor(g, ips))
    decreases |files|
  {
    if |files| == 0 {
      assert files + [g] == [g];
      var tailFails := if |fails| > 0 then fails[1..] else [];
      assert CollectEntries([g], ips, fails)
        == (if QueryFails(fails, 0) then [] else EntriesFor(g, ips)) + CollectEntries([], ips, tailFails);
    } else {
      var tailFails := if |fails| > 0 then fails[1..] else [];
      assert (files + [g])[0] == files[0];
      assert (files + [g])[1..] == files[1..] + [g];
      assert QueryFails(tailFails, |files| - 1) == QueryFails(fails, |files|);
      CollectEntriesAppend(files[1..], g, ips, tailFails);
    }
  }

  /** No reference to a file that was queried, no entry at all. */
  lemma {:induction false} NoReferenceNoEntries(files: seq<FileRow>, ips: seq<IpRecordRow>, fails: seq<bool>)
    requires forall i, j :: 0 <= i < |files| && !QueryFails(fails, i) && 0 <= j < |ips| ==>
      ips[j].fileId != Some(files[i].id)
    ensures CollectEntries(files, ips, fails) == []
    decreases |files|
  {
    if |files| > 0 {
      var tailFails := if |fails| > 0 then fails[1..] else [];
      assert forall i :: 1 <= i < |files| ==>
        (files[i] == files[1..][i - 1] && QueryFails(fails, i) == QueryFails(tailFails, i - 1));
      NoReferenceNoEntries(files[1..], ips, tailFails);
    }
  }

  /** The request names a digest to look up: a file, or a valid hash. */
  predicate HasLookupKey(req: VerifyRequest) {
    req.file.Some? || (Truthy(req.hash) && IsValidSha256(StripHexPrefix(req.hash)))
  }

  /** `verifyAsset`. */
  function VerifyAsset(req: VerifyRequest, db: Db, sha: Sha256, o: VerifyOracles): (r: VerifyResponse)
    // with a digest in hand, a missing client is a 500 before any query
    ensures HasLookupKey(req) && !o.dbAvailable ==>
      r.reply.status == 500 && r.lookupKey.None? && r.results == []
    ensures HasLookupKey(req) && o.dbAvailable ==> r.lookupKey.Some?
    // a failed files query is a 500, never a "not found"
    ensures r.lookupKey.Some? && o.filesQueryError.Some? ==> r.reply.status == 500 && r.results == []
    // without a file, an invalid hash is refused before any query
    ensures req.file.None? && !Truthy(req.hash) ==> r.reply.status == 400 && r.lookupKey.None?
    ensures req.file.None? && Truthy(req.hash) && !IsValidSha256(StripHexPrefix(req.hash)) ==>
      r.reply.status == 400 && r.lookupKey.None?
    // the lookup key is the file's digest, else the stripped hash unchanged
    ensures r.lookupKey.Some? ==>
      r.lookupKey.value == (if req.file.Some? then sha(req.file.value) else StripHexPrefix(req.hash))
    ensures r.lookupKey.Some? && o.filesQueryError.None? && FilesWithHash(db.files, r.lookupKey.value) == [] ==>
      r.reply == Reply(404, HashNotFoundMessage)
    ensures req.file.None? && IsValidSha256(StripHexPrefix(req.hash)) && o.dbAvailable ==>
      r.lookupKey == Some(StripHexPrefix(req.hash))
    // once the files query succeeds, the entries are exactly the join
    ensures r.lookupKey.Some? && o.filesQueryError.None? ==>
      r.results == CollectEntries(FilesWithHash(db.files, r.lookupKey.value), db.ipRecords, o.ipQueryFails)
    ensures r.reply.status == 200 <==> |r.results| > 0
    ensures r.reply.status == 200 ==>
      r.lookupKey.Some? && r.results == CollectEntries(FilesWithHash(db.files, r.lookupKey.value), db.ipRecords, o.ipQueryFails)
    ensures r.reply == Reply(404, NoTimestampMessage) ==>
      r.lookupKey.Some? && |FilesWithHash(db.files, r.lookupKey.value)| > 0
      && CollectEntries(FilesWithHash(db.files, r.lookupKey.value), db.ipRecords, o.ipQueryFails) == []
    ensures (r.lookupKey.Some? && o.filesQueryError.None? && |FilesWithHash(db.files, r.lookupKey.value)| > 0
             && CollectEntries(FilesWithHash(db.files, r.lookupKey.value), db.ipRecords, o.ipQueryFails) == []) ==>
      r.reply == Reply(404, NoTimestampMessage)
  {
    var key: Result<string, Reply> :=
      if req.file.Some? then Success(sha(req.file.value))
      else if Truthy(req.hash) then
        var provided := StripHexPrefix(req.hash);
        if IsValidSha256(provided) then Success(provided)
        else Failure(Reply(400, "Invalid SHA-256 hash format provided."))
      else Failure(Reply(400, "No file uploaded or hash provided for verification."));
    match key
    case Failure(reply) => VerifyResponse(reply, [], None)
    case Success(h) =>
      if !o.dbAvailable then
        VerifyResponse(Reply(500, "Verification service unavailable."), [], None)
      else if o.filesQueryError.Some? then
        VerifyResponse(Reply(500, "Database error during verification: " + o.filesQueryError.value), [], Some(h))
      else
        var matching := FilesWithHash(db.files, h);
        if |matching| == 0 then
          VerifyResponse(Reply(404, HashNotFoundMessage), [], Some(h))
        else
          var results := CollectEntries(matching, db.ipRecords, o.ipQueryFails);
          if |results| == 0 then
            VerifyResponse(Reply(404, NoTimestampMessage), [], Some(h))
          else
            VerifyResponse(Reply(200, "Found " + RadixString(|results|, 10) + " record(s) matching the hash."), results, Some(h))
  }

  /** The validity test accepts exactly 64 hex digits, in either case. */
  lemma ValidSha256Examples()
    ensures !IsValidSha256("")
    ensures IsValidSha256(ZeroDigest())
    ensures forall d: Digest :: IsValidSha256(d)
  {
  }

  /** An uploaded file wins over a `hash` field in the same request. */
  lemma FileTakesPrecedence(file: Bytes, hash: string, db: Db, sha: Sha256, o: VerifyOracles)
    requires o.dbAvailable
    ensures VerifyAsset(VerifyRequest(Some(file), hash), db, sha, o) == VerifyAsset(VerifyRequest(Some(file), ""), db, sha, o)
    ensures VerifyAsset(VerifyRequest(Some(file), hash), db, sha, o).lookupKey == Some(sha(file))
  {
  }

  /** The `0x` prefix is optional: with or without it, a valid digest is
      looked up under the same key and gets the same answer. */
  lemma HexPrefixIsOptional(h: string, db: Db, sha: Sha256, o: VerifyOracles)
    requires IsValidSha256(h)
    ensures VerifyAsset(VerifyRequest(None, "0x" + h), db, sha, o) == VerifyAsset(VerifyRequest(None, h), db, sha, o)
  {
    assert h[..2] != "0x" by {
      assert IsHexDigit(h[1]);
    }
    assert StripHexPrefix("0x" + h) == h;
  }

  /** Case is not normalised: a key that passes validation but spells a
      digit in upper case is a different key from every stored (lower-case)
      digest, so it is never found. */
  lemma LookupIsCaseSensitive(key: string, db: Db, sha: Sha256, o: VerifyOracles)
    requires o.dbAvailable && o.filesQueryError.None?
    requires forall f :: f in db.files ==> IsSha256Hex(f.sha256Hash)
    requires IsValidSha256(key) && exists i :: 0 <= i < |key| && 'A' <= key[i] <= 'F'
    ensures VerifyAsset(VerifyRequest(None, key), db, sha, o).reply == Reply(404, HashNotFoundMessage)
  {
    var i :| 0 <= i < |key| && 'A' <= key[i] <= 'F';
    assert IsHexDigit(key[1]);
    assert key[..2] != "0x" by { assert key[..2][1] == key[1]; }
    assert !IsLowerHexDigit(key[i]);
    assert forall f :: f in db.files ==> f.sha256Hash != key;
  }
}

=== FILE: verify_client.dfy ===
/**
  The public verification tool of the web client: a file or a typed hash
  (never both), a submit that classifies the server's answer as found, not
  found or error, and the explorer and gateway links of a result.
 */
module VerifyClient {
  import opened Wrappers
  import opened Text
  import opened Store
  import opened VerificationController

  datatype Mode = FileMode | HashMode

  datatype VerifyStatus = Idle | Verifying | Found | NotFound | Error

  /** The tool's state; `errorMessage` is "" for null. */
  datatype ToolState = ToolState(
    mode: Mode, file: Option<Bytes>, inputHash: string,
    status: VerifyStatus, errorMessage: string, results: seq<VerificationResult>)

  /** `resetState`. */
  function Reset(st: ToolState): (r: ToolState)
    ensures r.status == Idle && r.errorMessage == "" && r.results == []
    ensures r.mode == st.mode && r.file == st.file && r.inputHash == st.inputHash
  {
    st.(status := Idle, errorMessage := "", results := [])
  }

  /** At most one input is filled in. */
  predicate InputsExclusive(st: ToolState) {
    !(st.file.Some? && Truthy(st.inputHash))
  }

  /** `handleFileChange` with a file chosen: the typed hash is dropped. */
  function SelectFile(st: ToolState, file: Bytes): (r: ToolState)
    ensures r.file == Some(file) && r.inputHash == "" && r.status == Idle
    ensures InputsExclusive(r)
  {
    Reset(st).(file := Some(file), inputHash := "")
  }

  /** `handleHashChange`: the chosen file is dropped. */
  function ChangeHash(st: ToolState, text: string): (r: ToolState)
    ensures r.inputHash == text && r.file.None? && r.status == Idle
    ensures InputsExclusive(r)
  {
    Reset(st).(inputHash := text, file := None)
  }

  /** The tab buttons change only the mode. */
  function SetMode(st: ToolState, m: Mode): (r: ToolState)
    ensures r.mode == m && r.file == st.file && r.inputHash == st.inputHash
  {
    st.(mode := m)
  }

  /** Whether the current mode has its input: a file, or a hash that is not
      blank. */
  predicate HasInput(st: ToolState) {
    match st.mode
    case FileMode => st.file.Some?
    case HashMode => Truthy(Trim(st.inputHash))
  }

  predicate VerifyButtonDisabled(st: ToolState) {
    st.status == Verifying || !HasInput(st)
  }

  /** How `POST /verify` ends: a response with its status, its `results`
      (None when the body has none) and `message` ("" when absent), or an
      error with no response at all. */
  datatype ServerAnswer =
    | Answered(status: int, results: Option<seq<VerificationResult>>, message: string)
    | NoResponse(errorMessage: string)

  /** The statuses set in order, the request sent (if any) and the final
      state. */
  datatype ToolOutcome = ToolOutcome(trace: seq<VerifyStatus>, request: Option<VerifyRequest>, state: ToolState)

  /** The request the current input becomes: the file, or the trimmed hash. */
  function RequestFor(st: ToolState): (q: VerifyRequest)
    requires HasInput(st)
    ensures st.mode == FileMode ==> q == VerifyRequest(st.file, "")
    ensures st.mode == HashMode ==> q == VerifyRequest(None, Trim(st.inputHash)) && Truthy(q.hash)
  {
    match st.mode
    case FileMode => VerifyRequest(st.file, "")
    case HashMode => VerifyRequest(None, Trim(st.inputHash))
  }

  /** The status and message an answer leads to. axios rejects every status
      outside 2xx; of those a 404 means not found. */
  function Classify(answer: ServerAnswer): (r: (VerifyStatus, string))
    ensures r.0 == Found <==> answer.Answered? && answer.status == 200 && answer.results.Some?
    ensures r.0 == NotFound <==> answer.Answered? && answer.status == 404
    ensures r.0 in {Found, NotFound, Error}
    ensures r.0 == Found ==> r.1 == ""
    ensures r.0 != Found ==> Truthy(r.1) || (answer.NoResponse? && !Truthy(answer.errorMessage))
  {
    match answer
    case NoResponse(m) => (Error, m)
    case Answered(status, results, message) =>
      if 200 <= status < 300 then
        if status == 200 && results.Some? then (Found, "")
        else (Error, if Truthy(message) then message else "Verification failed with status: " + IntText(status))
      else if status == 404 then (NotFound, if Truthy(message) then message else "Record not found.")
      else (Error, if Truthy(message) then message else AxiosStatusMessage(status))
  }

  const NoFileMessage: string := "Please select a file to verify."
  const NoHashMessage: string := "Please enter a SHA-256 hash to verify."

  /** `handleSubmit`. */
  function Submit(st: ToolState, answer: ServerAnswer): (r: ToolOutcome)
    // everything starts from a reset
    ensures |r.trace| >= 2 && r.trace[0] == Idle
    ensures r.state.status == r.trace[|r.trace| - 1]
    // no input, no request
    ensures r.request.None? <==> !HasInput(st)
    ensures !HasInput(st) ==>
      r.trace == [Idle, Error] && r.state.results == []
      && r.state.errorMessage == (if st.mode == FileMode then NoFileMessage else NoHashMessage)
    ensures r.request.Some? ==>
      r.request.value == RequestFor(st) && r.trace == [Idle, Verifying, Classify(answer).0]
      && r.state.errorMessage == Classify(answer).1
    ensures r.state.status == Found <==> r.request.Some? && Classify(answer).0 == Found
    ensures r.state.status == Found ==> answer.Answered? && answer.results.Some? && r.state.results == answer.results.value
    ensures r.state.status != Found ==> r.state.results == []
    // inputs are never touched by a submission
    ensures r.state.file == st.file && r.state.inputHash == st.inputHash && r.state.mode == st.mode
  {
    var cleared := Reset(st);
    if !HasInput(st) then
      var message := if st.mode == FileMode then NoFileMessage else NoHashMessage;
      ToolOutcome([Idle, Error], None, cleared.(status := Error, errorMessage := message))
    else
      var (status, message) := Classify(answer);
      var results := if status == Found then answer.results.value else [];
      ToolOutcome([Idle, Verifying, status], Some(RequestFor(st)),
                  cleared.(status := status, errorMessage := message, results := results))
  }

  /** An enabled button always sends a request. */
  lemma EnabledButtonSends(st: ToolState, answer: ServerAnswer)
    requires !VerifyButtonDisabled(st)
    ensures Submit(st, answer).request == Some(RequestFor(st))
  {
  }

  /** Every transition keeps at most one input filled in. */
  lemma InputsStayExclusive(st: ToolState, file: Bytes, text: string, m: Mode, answer: ServerAnswer)
    requires InputsExclusive(st)
    ensures InputsExclusive(SelectFile(st, file)) && InputsExclusive(ChangeHash(st, text))
    ensures InputsExclusive(SetMode(st, m)) && InputsExclusive(Submit(st, answer).state)
  {
  }

  /** Whitespace around a typed hash does not matter: the request is the
      same as for the hash alone. */
  lemma HashIsSentTrimmed(st: ToolState, answer: ServerAnswer)
    requires st.mode == HashMode && HasInput(st)
    ensures Submit(st, answer).request == Some(VerifyRequest(None, Trim(st.inputHash)))
    ensures Submit(st.(inputHash := Trim(st.inputHash)), answer).request == Submit(st, answer).request
  {
    TrimIdempotent(st.inputHash);
  }

  // ---------------------------------------------------------------------
  // Links

  const ExplorerBase: string := "https://amoy.polygonscan.com"
  const IpfsGateway: string := "https://gateway.pinata.cloud/ipfs/"

  datatype LinkKind = TxLink | AddressLink | TokenLink

  /** `getExplorerLink`; `contractAddress` is the configured address, ""
      when unset. */
  function ExplorerLink(kind: LinkKind, value: string, contractAddress: string): (r: Option<string>)
    ensures r.None? <==> !Truthy(value) || (kind == TokenLink && !Truthy(contractAddress))
    ensures r.Some? ==> ExplorerBase <= r.value && |value| <= |r.value| && r.value[|r.value| - |value|..] == value
    ensures r.Some? && kind == TxLink ==> r.value == ExplorerBase + "/tx/" + value
    ensures r.Some? && kind == AddressLink ==> r.value == ExplorerBase + "/address/" + value
    ensures r.Some? && kind == TokenLink ==> r.value == ExplorerBase + "/nft/" + contractAddress + "/" + value
  {
    if !Truthy(value) then None
    else
      match kind
      case TxLink => Some(ExplorerBase + "/tx/" + value)
      case AddressLink => Some(ExplorerBase + "/address/" + value)
      case TokenLink => if Truthy(contractAddress) then Some(ExplorerBase + "/nft/" + contractAddress + "/" + value) else None
  }

  /** `getIpfsLink`: the CID under the gateway, and back. */
  function IpfsLink(cid: string): (r: Option<string>)
    ensures r.None? <==> !Truthy(cid)
    ensures r.Some? ==> IpfsGateway <= r.value && r.value[|IpfsGateway|..] == cid
  {
    if Truthy(cid) then Some(IpfsGateway + cid) else None
  }
}

=== FILE: wallet.dfy ===
/**
  The wallet connector of the web client: the network check, the
  switch-or-add-network fallback of EIP-3326 `wallet_switchEthereumChain` and
  EIP-3085 `wallet_addEthereumChain`, connecting, the `accountsChanged`
  handler, and the abbreviated address it displays. The injected EIP-1193
  provider is an oracle.
 */
module Wallet {
  import opened Wrappers
  import opened Text

  /** Polygon Amoy, the default required chain. */
  const PolygonAmoyChainId: nat := 80002

  /** The chain id as a wallet request parameter: `0x` and the lower-case
      hexadecimal digits. */
  function ChainIdParam(chainId: nat): (r: string)
    ensures |r| >= 3 && r[..2] == "0x" && IsNumeral(r[2..], 16)
    ensures |r| > 3 ==> r[2] != '0'
  {
    var digits := RadixString(chainId, 16);
    assert ("0x" + digits)[2..] == digits;
    "0x" + digits
  }

  /** The parameter reads back as the chain id it encodes. */
  lemma ChainIdParamRoundTrip(chainId: nat)
    ensures ParseRadix(ChainIdParam(chainId)[2..], 16) == chainId
  {
    assert ChainIdParam(chainId)[2..] == RadixString(chainId, 16);
    RadixRoundTrip(chainId, 16);
  }

  lemma AmoyChainIdParam()
    ensures ChainIdParam(PolygonAmoyChainId) == "0x13882"
  {
    assert RadixString(80002, 16) == RadixString(5000, 16) + [DigitChar(2)];
    assert RadixString(5000, 16) == RadixString(312, 16) + [DigitChar(8)];
    assert RadixString(312, 16) == RadixString(19, 16) + [DigitChar(8)];
    assert RadixString(19, 16) == RadixString(1, 16) + [DigitChar(3)];
  }

  // ---------------------------------------------------------------------
  // Checking and switching the network

  /** What `provider.getNetwork()` gives. */
  datatype NetworkProbe = NetworkFound(chainId: nat) | ProbeFailed

  /** `checkNetwork`: whether the wallet is on the required chain, and the
      new value of `wrongNetwork` (unchanged when the probe fails). */
  function CheckNetwork(probe: NetworkProbe, requiredChainId: nat, wrongNetwork: bool): (r: (bool, bool))
    ensures r.0 <==> probe == NetworkFound(requiredChainId)
    ensures probe.NetworkFound? ==> r.1 == !r.0
    ensures probe.ProbeFailed? ==> r.1 == wrongNetwork
  {
    match probe
    case ProbeFailed => (false, wrongNetwork)
    case NetworkFound(id) => (id == requiredChainId, id != requiredChainId)
  }

  /** The wallet requests the connector makes. */
  datatype WalletRequest = SwitchChain(chainId: string) | AddChain(chainId: string) | RequestAccounts

  /** How the wallet answers a request: it succeeds or throws an error with
      a numeric `code`. */
  datatype RequestReply = Accepted | Rejected(code: int)

  /** The code with which a wallet refuses to switch to a chain it does not
      know. */
  const UnrecognizedChainCode: int := 4902

  datatype SwitchOutcome = SwitchOutcome(switched: bool, requests: seq<WalletRequest>)

  /** `switchNetwork`. `hasRequest` says whether the injected provider has a
      `request` function. */
  function SwitchNetwork(hasRequest: bool, requiredChainId: nat, switchReply: RequestReply, addReply: RequestReply): (r: SwitchOutcome)
    ensures !hasRequest ==> r == SwitchOutcome(false, [])
    ensures hasRequest ==> |r.requests| >= 1 && r.requests[0] == SwitchChain(ChainIdParam(requiredChainId))
    // the chain is added only after the wallet reported it unknown
    ensures AddChain(ChainIdParam(requiredChainId)) in r.requests <==> hasRequest && switchReply == Rejected(UnrecognizedChainCode)
    ensures r.switched <==>
      hasRequest && (switchReply.Accepted? || (switchReply == Rejected(UnrecognizedChainCode) && addReply.Accepted?))
    ensures forall q :: q in r.requests ==> (q.SwitchChain? || q.AddChain?) && q.chainId == ChainIdParam(requiredChainId)
  {
    if !hasRequest then SwitchOutcome(false, [])
    else
      var param := ChainIdParam(requiredChainId);
      match switchReply
      case Accepted => SwitchOutcome(true, [SwitchChain(param)])
      case Rejected(code) =>
        if code == UnrecognizedChainCode then SwitchOutcome(addReply.Accepted?, [SwitchChain(param), AddChain(param)])
        else SwitchOutcome(false, [SwitchChain(param)])
  }

  // ---------------------------------------------------------------------
  // Connecting

  /** The connector's state. `address` is "" when there is none. */
  datatype WalletState = WalletState(
    address: string, hasSigner: bool, isConnecting: bool, error: string, wrongNetwork: bool)

  /** What the provider does during one connection attempt. `accounts` is
      the answer to `eth_requestAccounts`; `accountsError` is the message of
      an error thrown while requesting accounts or the signer, "" for none
      when `accountsFail` holds. */
  datatype ConnectOracles = ConnectOracles(
    providerPresent: bool,
    hasRequest: bool,
    probe: NetworkProbe,
    switchReply: RequestReply,
    addReply: RequestReply,
    accountsFail: bool,
    accountsError: string,
    accounts: seq<string>)

  /** The new state, the wallet requests made in order, and the address
      `onConnected` was called with, if it was called. */
  datatype ConnectOutcome = ConnectOutcome(state: WalletState, requests: seq<WalletRequest>, connected: Option<string>)

  const NoProviderMessage: string := "Metamask (or other EIP-1193 provider) not detected. Please install it."

  function WrongNetworkMessage(requiredChainId: nat): string {
    "Please switch to the required network (Chain ID: " + RadixString(requiredChainId, 10) + ")"
  }

  function FirstAccount(accounts: seq<string>): string {
    if |accounts| > 0 then accounts[0] else ""
  }

  /** `connectWallet`. */
  function ConnectWallet(st: WalletState, requiredChainId: nat, o: ConnectOracles): (r: ConnectOutcome)
    ensures !o.providerPresent ==> r.state == st.(error := NoProviderMessage) && r.requests == [] && r.connected.None?
    // once a provider is there, the attempt always ends not connecting
    ensures o.providerPresent ==> !r.state.isConnecting
    // accounts are requested only on the required chain or after a switch
    ensures RequestAccounts in r.requests ==>
      CheckNetwork(o.probe, requiredChainId, st.wrongNetwork).0
      || SwitchNetwork(o.hasRequest, requiredChainId, o.switchReply, o.addReply).switched
    ensures (o.providerPresent && !CheckNetwork(o.probe, requiredChainId, st.wrongNetwork).0
             && !SwitchNetwork(o.hasRequest, requiredChainId, o.switchReply, o.addReply).switched) ==>
      r.state.error == WrongNetworkMessage(requiredChainId) && RequestAccounts !in r.requests && r.connected.None?
    ensures r.connected.Some? ==>
      RequestAccounts in r.requests && !o.accountsFail && r.connected.value == FirstAccount(o.accounts)
      && r.state.address == r.connected.value && r.state.hasSigner && r.state.error == ""
    // on the required chain, or once the switch went through, the accounts
    // are requested after the switch requests, and a first account connects
    ensures (o.providerPresent && (CheckNetwork(o.probe, requiredChainId, st.wrongNetwork).0
             || SwitchNetwork(o.hasRequest, requiredChainId, o.switchReply, o.addReply).switched)) ==>
      r.requests == (if CheckNetwork(o.probe, requiredChainId, st.wrongNetwork).0 then []
                     else SwitchNetwork(o.hasRequest, requiredChainId, o.switchReply, o.addReply).requests) + [RequestAccounts]
    ensures (o.providerPresent && (CheckNetwork(o.probe, requiredChainId, st.wrongNetwork).0
             || SwitchNetwork(o.hasRequest, requiredChainId, o.switchReply, o.addReply).switched)
             && !o.accountsFail) ==>
      r.connected == Some(FirstAccount(o.accounts)) && r.state.address == FirstAccount(o.accounts)
    ensures o.providerPresent && RequestAccounts in r.requests && o.accountsFail ==>
      r.state.error == "Failed to connect wallet: " + (if Truthy(o.accountsError) then o.accountsError else "Unknown error")
      && r.connected.None?
  {
    if !o.providerPresent then ConnectOutcome(st.(error := NoProviderMessage), [], None)
    else
      var (correct, wrong) := CheckNetwork(o.probe, requiredChainId, st.wrongNetwork);
      var sw := if correct then SwitchOutcome(true, []) else SwitchNetwork(o.hasRequest, requiredChainId, o.switchReply, o.addReply);
      var checked := st.(isConnecting := false, error := "", wrongNetwork := wrong);
      if !sw.switched then
        ConnectOutcome(checked.(error := WrongNetworkMessage(requiredChainId)), sw.requests, None)
      else
        var requests := sw.requests + [RequestAccounts];
        assert forall q :: q in sw.requests ==> q != RequestAccounts;
        if o.accountsFail then
          var message := if Truthy(o.accountsError) then o.accountsError else "Unknown error";
          ConnectOutcome(checked.(error := "Failed to connect wallet: " + message), requests, None)
        else
          var address := FirstAccount(o.accounts);
          ConnectOutcome(checked.(address := address, hasSigner := true), requests, Some(address))
  }

  /** The outcome of the `accountsChanged` handler: the new state, the
      requests of a reconnection, and whether the disconnect path was taken
      (which calls `onDisconnected` when that prop is given). */
  datatype AccountsChangedOutcome = AccountsChangedOutcome(state: WalletState, requests: seq<WalletRequest>, disconnected: bool)

  /** `handleAccountsChanged`: an empty list disconnects; any other list
      starts a fresh connection. */
  function AccountsChanged(accounts: seq<string>, st: WalletState, requiredChainId: nat, o: ConnectOracles): (r: AccountsChangedOutcome)
    ensures |accounts| == 0 ==>
      r.disconnected && r.requests == [] && r.state == st.(address := "", hasSigner := false)
    ensures |accounts| > 0 ==>
      !r.disconnected && r.state == ConnectWallet(st, requiredChainId, o).state
      && r.requests == ConnectWallet(st, requiredChainId, o).requests
  {
    if |accounts| == 0 then AccountsChangedOutcome(st.(address := "", hasSigner := false), [], true)
    else
      var c := ConnectWallet(st, requiredChainId, o);
      AccountsChangedOutcome(c.state, c.requests, false)
  }

  /** The reported list itself is not used: on reconnection the address
      comes from a new `eth_requestAccounts`, whatever the event carried. */
  lemma ReportedAccountsAreIgnored(a: seq<string>, b: seq<string>, st: WalletState, requiredChainId: nat, o: ConnectOracles)
    requires |a| > 0 && |b| > 0
    ensures AccountsChanged(a, st, requiredChainId, o) == AccountsChanged(b, st, requiredChainId, o)
  {
  }

  /** On the required chain nothing is switched: the only request is for
      the accounts, and the first account becomes the address. */
  lemma OnRequiredChainConnectsDirectly(st: WalletState, requiredChainId: nat, o: ConnectOracles)
    requires o.providerPresent && o.probe == NetworkFound(requiredChainId) && !o.accountsFail
    ensures ConnectWallet(st, requiredChainId, o).requests == [RequestAccounts]
    ensures ConnectWallet(st, requiredChainId, o).connected == Some(FirstAccount(o.accounts))
    ensures !ConnectWallet(st, requiredChainId, o).state.wrongNetwork
  {
  }

  // ---------------------------------------------------------------------
  // Display

  /** The address as displayed: `substring(0, 6) + "..." + substring(len - 4)`. */
  function AbbreviateAddress(a: string): (r: string)
    ensures |a| >= 10 ==> r == a[..6] + "..." + a[|a| - 4..] && |r| == 13
    ensures |a| >= 6 ==> |r| >= 9 && r[..6] == a[..6]
    ensures |a| >= 4 ==> |r| >= 7 && r[|r| - 4..] == a[|a| - 4..]
  {
    Substring(a, 0, 6) + "..." + Substring(a, |a| - 4, |a|)
  }

  /** A short address is not shortened: below four characters both ends
      show the whole of it. */
  lemma ShortAddressRepeats(a: string)
    requires |a| < 4
    ensures AbbreviateAddress(a) == a + "..." + a
  {
  }
}

=== FILE: workflow.dfy ===
/**
  How the pieces fit together across the client, the server and the
  contract: the client's limit check against the server's gate, the
  prepare-mint-confirm hand-over, and what the verification endpoint and the
  download then see of a confirmed or half-written mint.
 */
module Workflow {
  import opened Wrappers
  import opened Text
  import opened Store
  import FileController
  import UploadClient
  import VerificationController
  import VerifyClient
  import RecordController
  import Dashboard
  import IpNft

  // ---------------------------------------------------------------------
  // Usage limits

  /** A client state holding `profile` and a file of `size` bytes. */
  function WithSelection(st: UploadClient.UploadState, profile: Profile, size: nat): (s: UploadClient.UploadState)
    ensures s.profile == Some(profile) && s.file.Some? && s.file.value.size == size
  {
    st.(profile := Some(profile), file := Some(UploadClient.SelectedFile("", "", size)))
  }

  /** The client refuses exactly the uploads the server's gate refuses, and
      for the same reason: same thresholds, same comparisons. */
  lemma ClientLimitsMatchServer(st: UploadClient.UploadState, profile: Profile, size: nat)
    ensures var s := WithSelection(st, profile, size);
      && (UploadClient.IsOverLimit(s) <==> FileController.CheckUsage(profile, size) != FileController.WithinLimits)
      && (UploadClient.RecordsLimitReached(s) <==> FileController.CheckUsage(profile, size) == FileController.RecordLimitReached)
  {
  }

  // ---------------------------------------------------------------------
  // From preparation to confirmation

  /** The client's view of the file the server received. */
  function AsSelected(f: FileController.UploadedFile): (s: UploadClient.SelectedFile)
    ensures s.name == f.originalName && s.mimeType == f.mimeType && s.size == |f.buffer|
  {
    UploadClient.SelectedFile(f.originalName, f.mimeType, |f.buffer|)
  }

  /** What the client sends to `confirm-mint` carries back what `upload`
      prepared: the metadata CID recovered from the token URI, the digest,
      the file CID and the name, and a token id that reads back as the
      minted one. */
  lemma ConfirmationEchoesPreparation(req: FileController.UploadRequest, db: Db, sha: Sha256,
                                      o: FileController.UploadOracles, txHash: string, tokenId: nat)
    requires FileController.HandleFileUpload(req, db, sha, o).prepared.Some?
    ensures var prepared := FileController.HandleFileUpload(req, db, sha, o).prepared.value;
      var d := UploadClient.ConfirmationPayload(AsSelected(req.file.value), prepared, txHash, tokenId);
      && d.metadataCid == o.pinnedMetadataCid
      && d.fileHash == sha(req.file.value.buffer)
      && d.fileCid == o.pinnedFileCid
      && d.originalFilename == req.file.value.originalName
      && d.sizeBytes == |req.file.value.buffer|
      && IsNumeral(d.tokenId, 10) && ParseRadix(d.tokenId, 10) == tokenId
  {
    ReplacePrefixRoundTrip(FileController.IpfsScheme, o.pinnedMetadataCid);
    RadixRoundTrip(tokenId, 10);
  }

  /** A non-empty file with a type, minted in a transaction with a hash,
      passes the server's presence check; an empty file never does, so its
      mint is minted on chain but never recorded. */
  lemma PresenceCheckOnPayload(req: FileController.UploadRequest, db: Db, sha: Sha256,
                               o: FileController.UploadOracles, txHash: string, tokenId: nat)
    requires FileController.HandleFileUpload(req, db, sha, o).prepared.Some?
    ensures var prepared := FileController.HandleFileUpload(req, db, sha, o).prepared.value;
      var f := req.file.value;
      var d := UploadClient.ConfirmationPayload(AsSelected(f), prepared, txHash, tokenId);
      (FileController.HasRequiredDetails(d) <==>
         Truthy(txHash) && Truthy(f.originalName) && Truthy(f.mimeType) && |f.buffer| > 0)
  {
    var f := req.file.value;
    ReplacePrefixRoundTrip(FileController.IpfsScheme, o.pinnedMetadataCid);
    assert |sha(f.buffer)| == 64;
  }

  // ---------------------------------------------------------------------
  // The contract's events as the client reads them

  /** The `Transfer` event as a receipt log. */
  function AsLog(e: IpNft.TransferEvent): (l: UploadClient.ReceiptLog)
    ensures l.TransferLog? && l.from == e.from && l.to == e.to && l.tokenId == e.tokenId
  {
    UploadClient.TransferLog(e.from, e.to, e.tokenId)
  }

  /** The client finds the id the contract handed out in the mint's
      receipt, and a burn's event is never taken for a mint. */
  lemma MintEventCarriesTokenId(reg: IpNft.Registry, to: IpNft.Address, uri: string, other: seq<UploadClient.ReceiptLog>)
    requires IpNft.Valid(reg) && to != IpNft.ZeroAddress
    requires forall k :: 0 <= k < |other| ==> !UploadClient.IsMintLog(other[k])
    ensures var m := IpNft.SafeMint(reg, to, uri).value;
      UploadClient.FindMintTokenId(other + [AsLog(m.event)]) == Some(m.tokenId)
      && m.tokenId == reg.nextTokenId
  {
    var m := IpNft.SafeMint(reg, to, uri).value;
    var logs := other + [AsLog(m.event)];
    var r := UploadClient.FindMintTokenId(logs);
    assert UploadClient.IsMintLog(logs[|other|]);
    var k :| 0 <= k < |logs| && UploadClient.IsMintLog(logs[k]) && logs[k].tokenId == r.value
             && forall j :: 0 <= j < k ==> !UploadClient.IsMintLog(logs[j]);
    assert forall j :: 0 <= j < |other| ==> logs[j] == other[j];
  }

  lemma BurnEventIsNotAMint(reg: IpNft.Registry, caller: IpNft.Address, id: nat)
    requires IpNft.Valid(reg) && IpNft.Burn(reg, caller, id).Success?
    ensures !UploadClient.IsMintLog(AsLog(IpNft.Burn(reg, caller, id).value.event))
    ensures UploadClient.FindMintTokenId([AsLog(IpNft.Burn(reg, caller, id).value.event)]).None?
  {
  }

  // ---------------------------------------------------------------------
  // What verification sees

  /** A stored digest is a valid lookup key, unchanged by prefix stripping. */
  lemma DigestIsLookupKey(h: string)
    requires IsSha256Hex(h)
    ensures VerificationController.StripHexPrefix(h) == h && VerificationController.IsValidSha256(h)
  {
    assert h[..2] != "0x" by { assert IsLowerHexDigit(h[1]); }
    forall k | 0 <= k < |h| ensures IsHexDigit(h[k]) { assert IsLowerHexDigit(h[k]); }
  }

  /** A file row with digest `h` and a record referencing it give an entry
      of the join, when no per-file query fails. */
  lemma JoinFindsPair(files: seq<FileRow>, ips: seq<IpRecordRow>, fails: seq<bool>, h: string, f: FileRow, ip: IpRecordRow)
    requires f in files && f.sha256Hash == h && ip in ips && ip.fileId == Some(f.id)
    requires forall i :: 0 <= i < |fails| ==> !fails[i]
    ensures VerificationController.Entry(f, ip)
      in VerificationController.CollectEntries(VerificationController.FilesWithHash(files, h), ips, fails)
  {
    var matching := VerificationController.FilesWithHash(files, h);
    var i :| 0 <= i < |matching| && matching[i] == f;
    var j :| 0 <= j < |ips| && ips[j] == ip;
    assert !VerificationController.QueryFails(fails, i);
  }

  /** A confirmed mint is found: looking up its digest answers 200 with an
      entry built from the two rows just written. */
  lemma ConfirmedMintIsVerifiable(req: FileController.ConfirmRequest, db: Db, co: FileController.ConfirmOracles,
                                  sha: Sha256, vo: VerificationController.VerifyOracles)
    requires FileController.HandleMintConfirmation(req, db, co).0.reply.status == 200
    requires IsSha256Hex(req.details.fileHash)
    requires vo.dbAvailable && vo.filesQueryError.None?
    requires forall i :: 0 <= i < |vo.ipQueryFails| ==> !vo.ipQueryFails[i]
    ensures var after := FileController.HandleMintConfirmation(req, db, co).1;
      var r := VerificationController.VerifyAsset(VerificationController.VerifyRequest(None, req.details.fileHash), after, sha, vo);
      && r.reply.status == 200
      && VerificationController.Entry(
           FileController.NewFileRow(req, co.fileInsert.id),
           FileController.NewIpRecordRow(req, co.fileInsert.id, co.ipInsert.id, co)) in r.results
  {
    var after := FileController.HandleMintConfirmation(req, db, co).1;
    var h := req.details.fileHash;
    var fileRow := FileController.NewFileRow(req, co.fileInsert.id);
    var ipRow := FileController.NewIpRecordRow(req, co.fileInsert.id, co.ipInsert.id, co);
    assert after.files == db.files + [fileRow];
    assert after.ipRecords == db.ipRecords + [ipRow];
    assert fileRow in after.files && ipRow in after.ipRecords;
    DigestIsLookupKey(h);
    JoinFindsPair(after.files, after.ipRecords, vo.ipQueryFails, h, fileRow, ipRow);
  }

  /** The orphan row of a failed `ip_records` insert makes a new digest
      look timestamped but unrecorded: 404 with the no-timestamp message,
      not the not-found one. */
  lemma OrphanRowAnswersNoTimestamp(req: FileController.ConfirmRequest, db: Db, co: FileController.ConfirmOracles,
                                    sha: Sha256, vo: VerificationController.VerifyOracles)
    requires Truthy(req.userId) && FileController.HasRequiredDetails(req.details) && co.dbAvailable
    requires co.fileInsert.Inserted? && Truthy(co.fileInsert.id) && co.ipInsert.InsertFailed?
    requires IsSha256Hex(req.details.fileHash)
    // the digest was new, and no record already pointed at the new id
    requires forall f :: f in db.files ==> f.sha256Hash != req.details.fileHash
    requires forall ip :: ip in db.ipRecords ==> ip.fileId != Some(co.fileInsert.id)
    requires vo.dbAvailable && vo.filesQueryError.None?
    ensures var after := FileController.HandleMintConfirmation(req, db, co).1;
      VerificationController.VerifyAsset(VerificationController.VerifyRequest(None, req.details.fileHash), after, sha, vo).reply
        == Reply(404, VerificationController.NoTimestampMessage)
  {
    FileController.IpInsertFailureLeavesOrphan(req, db, co);
    var after := FileController.HandleMintConfirmation(req, db, co).1;
    var h := req.details.fileHash;
    var fileRow := FileController.NewFileRow(req, co.fileInsert.id);
    assert after.files == db.files + [fileRow];
    DigestIsLookupKey(h);
    var matching := VerificationController.FilesWithHash(after.files, h);
    assert fileRow in after.files;
    assert fileRow in matching;
    // every matching row is the orphan, and nothing references it
    assert forall k :: 0 <= k < |matching| ==> matching[k] == fileRow;
    var entries := VerificationController.CollectEntries(matching, after.ipRecords, vo.ipQueryFails);
    assert forall j :: 0 <= j < |after.ipRecords| ==> after.ipRecords[j] in db.ipRecords;
    VerificationController.NoReferenceNoEntries(matching, after.ipRecords, vo.ipQueryFails);
  }

  /** The verify page shows what the endpoint answers: a 200 is found, a
      404 of either kind is not found. */
  lemma ClientReadsServerVerdict(req: VerificationController.VerifyRequest, db: Db, sha: Sha256,
                                 vo: VerificationController.VerifyOracles)
    ensures var r := VerificationController.VerifyAsset(req, db, sha, vo);
      && (r.reply.status == 200 ==>
            VerifyClient.Classify(VerifyClient.Answered(200, Some(r.results), r.reply.message)).0 == VerifyClient.Found)
      && (r.reply.status == 404 ==>
            VerifyClient.Classify(VerifyClient.Answered(404, None, r.reply.message)).0 == VerifyClient.NotFound)
  {
  }

  // ---------------------------------------------------------------------
  // The certificate as the portfolio page receives it

  /** Response headers a page may read from another origin without being
      told: the CORS-safelisted ones. */
  const SafelistedHeaders: set<string> :=
    {"Cache-Control", "Content-Language", "Content-Length", "Content-Type", "Expires", "Last-Modified", "Pragma"}

  /** What the API lists in `Access-Control-Expose-Headers`: `cors()` with
      no options lists nothing. */
  const ServerExposedHeaders: set<string> := {}

  /** The value of the first header called `name`, "" when there is none. */
  function HeaderValue(headers: seq<RecordController.Header>, name: string): (v: string)
    ensures (forall k :: 0 <= k < |headers| ==> headers[k].name != name) ==> v == ""
    ensures forall k :: (0 <= k < |headers| && headers[k].name == name &&
      (forall l :: 0 <= l < k ==> headers[l].name != name)) ==> v == headers[k].value
    decreases |headers|
  {
    if |headers| == 0 then ""
    else if headers[0].name == name then headers[0].value
    else
      var v := HeaderValue(headers[1..], name);
      assert forall k :: 1 <= k < |headers| ==> headers[k] == headers[1..][k - 1];
      v
  }

  /** The header as the page's script reads it. The page asks the API at
      the API's own base URL, so unless both are served from one origin the
      browser hands over only the safelisted headers and the exposed ones. */
  function HeaderAsRead(headers: seq<RecordController.Header>, name: string, sameOrigin: bool, exposed: set<string>): (v: string)
    ensures (sameOrigin || name in SafelistedHeaders || name in exposed) ==> v == HeaderValue(headers, name)
    ensures !(sameOrigin || name in SafelistedHeaders || name in exposed) ==> v == ""
  {
    if sameOrigin || name in SafelistedHeaders || name in exposed then HeaderValue(headers, name) else ""
  }

  /** A page session that can send the request. */
  const SignedIn: Dashboard.SessionState := Dashboard.SessionState("", true, false)

  /** As deployed, with the API on another origin and nothing exposed, the
      page cannot see `Content-Disposition` and saves a served certificate
      under its own default name. */
  lemma CertificateSavedUnderDefaultName(recordId: string, userId: string, db: Db, o: RecordController.CertificateOracles)
    requires RecordController.GetCertificate(recordId, userId, db, o).reply.status == 200
    ensures var headers := RecordController.GetCertificate(recordId, userId, db, o).headers;
      var seen := HeaderAsRead(headers, "Content-Disposition", false, ServerExposedHeaders);
      Dashboard.DownloadCertificate(recordId, SignedIn, Dashboard.Fetched(200, seen)).savedAs
        == Some("certificate-" + recordId + ".pdf")
  {
    var headers := RecordController.GetCertificate(recordId, userId, db, o).headers;
    assert "Content-Disposition" !in SafelistedHeaders;
    assert HeaderAsRead(headers, "Content-Disposition", false, ServerExposedHeaders) == "";
    assert Dashboard.DownloadName(recordId, "") == "certificate-" + recordId + ".pdf";
  }

  /** When the page can read the header (one origin, or the header
      exposed), the closing quote of the server's header ends up in the
      saved name. */
  lemma CertificateSavedWithQuote(recordId: string, userId: string, db: Db, o: RecordController.CertificateOracles,
                                  sameOrigin: bool, exposed: set<string>)
    requires RecordController.GetCertificate(recordId, userId, db, o).reply.status == 200
    requires Dashboard.NoLineTerminator(recordId)
    requires sameOrigin || "Content-Disposition" in exposed
    ensures var headers := RecordController.GetCertificate(recordId, userId, db, o).headers;
      var seen := HeaderAsRead(headers, "Content-Disposition", sameOrigin, exposed);
      Dashboard.DownloadCertificate(recordId, SignedIn, Dashboard.Fetched(200, seen)).savedAs
        == Some("certificate-" + recordId + ".pdf\"")
  {
    var headers := RecordController.GetCertificate(recordId, userId, db, o).headers;
    assert headers[0].name != "Content-Disposition";
    assert HeaderValue(headers, "Content-Disposition") == headers[1].value;
    Dashboard.ServerHeaderKeepsClosingQuote(recordId);
  }

  /** A refused download shows axios's status message, never the reason the
      endpoint gave. */
  lemma RefusedDownloadHidesReason(recordId: string, userId: string, db: Db, o: RecordController.CertificateOracles)
    requires RecordController.GetCertificate(recordId, userId, db, o).reply.status == 404
    ensures var reply := RecordController.GetCertificate(recordId, userId, db, o).reply;
      var shown := Dashboard.DownloadCertificate(recordId, SignedIn,
                     Dashboard.FetchFailed(Some(reply), AxiosStatusMessage(404))).downloadError;
      shown == Some(AxiosStatusMessage(404)) && shown != Some(reply.message)
  {
    var reply := RecordController.GetCertificate(recordId, userId, db, o).reply;
    var m := AxiosStatusMessage(404);
    assert m[0] == 'R';
    assert RecordController.RecordNotFoundMessage[0] == 'I' && RecordController.IncompleteRecordMessage[0] == 'I';
  }
}

=== FILE: wrappers.dfy ===
/** Failure-compatible wrappers shared by every module of the model. */
module Wrappers {

  /** A value that may be absent: JavaScript's `null`/`undefined` next to a real value. */
  datatype Option<+T> = None | Some(value: T) {

    predicate IsFailure() {
      None?
    }

    function PropagateFailure<U>(): Option<U>
      requires None?
    {
      None
    }

    function Extract(): T
      requires Some?
    {
      value
    }

    function GetOr(default: T): T {
      match this
      case Some(v) => v
      case None => default
    }
  }

  /** Either a value or an error, for operations that revert or reject. */
  datatype Result<+R, +E> = Success(value: R) | Failure(error: E) {

    predicate IsFailure() {
      Failure?
    }

    function PropagateFailure<U>(): Result<U, E>
      requires Failure?
    {
      Failure(error)
    }

    function Extract(): R
      requires Success?
    {
      value
    }
  }
}
